=== FILE: README.md ===
# DataTables extension for Tableau: settings codec and column reordering

This project models the core of a Tableau dashboard extension. The extension
shows a worksheet's data in a DataTables table. It has two pages:

- the **configuration dialog** (`public/js/dialog.js`). It writes the user's
  choices into the dashboard's settings, a map from string keys to string values:
  - the worksheet, the data kind and the row limit;
  - each look-and-feel and export checkbox, stored as `"Y"` or `"N"`;
  - the space-separated `table-classes` string;
  - the number of row-header columns;
  - the chosen column order and column titles. These are two `|`-joined
    strings, `column_order` (one-based source column numbers, for example
    `3|1|2`) and `column_names`.
- the **main view** (`public/js/index.js`). It reads those settings back,
  fetches the data, reorders each row's cells by `column_order`, titles the
  columns with `column_names`, and chooses the widget's export buttons and
  options. It also computes the page ranges and the `aria-sort` value
  announced to screen readers.

The Dafny modules follow that structure:

| module | file | what it holds |
|---|---|---|
| `Wrappers` | `wrappers.dfy` | `Option` and `Result` |
| `Delimited` | `delimited.dfy` | JavaScript `split`/`join` on one separator character, with the round trip between them |
| `Decimal` | `decimal.dfy` | decimal rendering of the column counter, and the numeric reading of a stored piece |
| `Permutations` | `permutations.dfy` | one-based selection `Pick`, the natural order `Iota`, and permutations as multiset equality with `Iota(n)` |
| `SettingsStore` | `settings.dfy` | the settings map, the twelve checkbox flags and their keys, `"Y"`/`"N"` |
| `Dialog` | `dialog.dfy` | the column list (fresh, dragged, relabelled), the save handler, and the reopened dialog |
| `MainView` | `mainview.dfy` | the fetch plan, the reordering loop as written, the checked column decoder, and the buttons and options |
| `Accessibility` | `accessibility.dfy` | the page entry range and the `aria-sort` value |
| `Configuration` | `configuration.dfy` | end-to-end properties: configure in the dialog, then render in the main view |

Dragging in the sortable list is modelled as a permutation `moves` of
`1..n`: display position `j` ends up holding the item that was at position
`moves[j]`. Typing into an item's text box is modelled as `Relabel`.

Where a stored value is absent, the code calls `.split` on `undefined` and
throws. The model returns an error value for this (`MissingColumnSettings`,
`ColumnNamesMissing`). A saved order that names no live column, or that is too
short, makes the reordering loop read past a row. The model of the loop as
written (`FillTableData`, `ColumnsAsWritten`) returns `StaleColumnOrder` for
this and accepts everything else the loop accepts.

`Render` is the corrected render. It decodes through `DecodeColumns`, which
also refuses saved columns the code would show without an error: an order
longer than the worksheet's columns (the code ignores the extra pieces), an
order naming one column twice (the code shows it twice), a names count that
differs from the column count, and, when the worksheet has no rows, any saved
columns that do not fit it (`ColumnsFit` false), since the code then never
enters its loop. Wherever `DecodeColumns` accepts, it gives exactly what the code gives
(`DecodeRefinesAsWritten`).

## Model

| member | source | states |
|---|---|---|
| Delimited.Split | public/js/index.js:104 | splitting always yields at least one piece; no piece holds the separator; joining the pieces gives back the original string |
| Delimited.SplitJoin | public/js/dialog.js:273-298 | a non-empty list of separator-free pieces, joined with bars as the save handler does, splits back into exactly that list |
| Delimited.SplitCountsAgree | public/js/dialog.js:276-298 | the order string and the names string, built from one list of items, split into the same number of pieces |
| Decimal.ParseShow | public/js/dialog.js:142-162 | the counter written as an item's `col_num` reads back as the same number when the main view subtracts one from it |
| Decimal.ParseNat | public/js/index.js:119 | a piece has a numeric value exactly when it is a non-empty string of decimal digits |
| Permutations.PermutationInRange | public/js/index.js:115-121 | every entry of a permutation of `1..n` names one of the `n` source columns, and there are `n` entries |
| Permutations.PickPermutation | public/js/index.js:115-121 | selecting a row's cells by a permutation of its columns keeps every cell exactly as often as the row has it |
| SettingsStore.FlagKeysDistinct | public/js/dialog.js:194-266 | the twelve checkbox keys are pairwise different and none is one of the other setting keys, so no checkbox overwrites another setting |
| Dialog.FreshList | public/js/dialog.js:142-162 | the list built for a chosen worksheet has one item per field; item `k` carries as `col_num` exactly the decimal text of `k+1` (`Show`: digits, no leading zero), which reads back as `k+1`, has field `k` as its id and nothing typed, and so is labelled with field `k` |
| Dialog.Drag | public/js/dialog.js:167-172 | dragging rearranges the items: same items with the same counts, position `j` holding the item from position `moves[j]` |
| Dialog.Relabel | public/js/dialog.js:284-296 | typing titles changes only the typed text; every item keeps its `col_num` and field name |
| Dialog.EncodeColumns | public/js/dialog.js:273-298 | the loop builds the order string as the bar-join of the items' `col_num`s, and the names string as the bar-join of their titles (typed text, or the field name when nothing was typed) |
| Dialog.ShownFlagsSpec | public/js/dialog.js:193-235 | a look-and-feel option appears in the class list exactly when it is shown, and the list keeps the order of the checkboxes |
| Dialog.TableClasses | public/js/dialog.js:193-237 | the class string is empty exactly when the boxes yield no class name (nowrap yields one when unticked), and otherwise starts with a space; `TableClassWords` and `TableClassMembers` give its words |
| Dialog.TableClassWords | public/js/dialog.js:193-237 | splitting `table-classes` on spaces gives an empty word (the leading space) followed by the class names |
| Dialog.TableClassMembers | public/js/dialog.js:193-237 | a class name is in `table-classes` exactly when its box is ticked, except `nowrap`, which is present exactly when its box is not ticked; the names follow the checkbox order |
| Dialog.WriteFlagsStores | public/js/dialog.js:194-266 | after a run of checkbox writes, each written key holds `"Y"` when its box is ticked and `"N"` otherwise |
| Dialog.WriteFlagsKeeps | public/js/dialog.js:194-266 | a run of checkbox writes leaves every other key as it was |
| Dialog.SaveStoresFlags | public/js/dialog.js:194-266 | after saving, all twelve checkbox keys hold `"Y"`/`"N"` matching the form |
| Dialog.SaveStoresClasses | public/js/dialog.js:237 | after saving, `table-classes` holds the class string of the ticked boxes |
| Dialog.SaveStoresData | public/js/dialog.js:185-187 | after saving, worksheet, row limit and data kind hold the form's values |
| Dialog.SaveStoresFields | public/js/dialog.js:300-305 | after saving, the row-header count holds the form's value, and `column_order`/`column_names` hold the joins of the listed items |
| Dialog.Save | public/js/dialog.js:182-305 | saving removes no setting, and it always leaves a worksheet and both column strings for the main view; `SaveStoresFlags`, `SaveStoresClasses`, `SaveStoresData` and `SaveStoresFields` give each written value, and `SaveKeepsOthers` gives the rest |
| Dialog.SaveKeepsOthers | public/js/dialog.js:182-305 | saving leaves every key it does not write unchanged |
| Dialog.RowHeaderOptions | public/js/dialog.js:91-98 | the reopened dialog offers row-header counts `1..n`, one per saved column; at most one is selected, and only one whose number equals the stored count |
| Dialog.RestoreChecks | public/js/dialog.js:14-76 | once a worksheet is stored, a box is ticked exactly when its key reads `"Y"`; before that, the page's own defaults stay |
| Dialog.Rebuild | public/js/dialog.js:88-93 | the rebuilt list is titled by the saved names; when the order has enough pieces the col_nums are its first pieces, and past the order's end they read as no number; `Reopen` and `ReopenRebuildsSavedList` build on it |
| Dialog.Reopen | public/js/dialog.js:86-98 | reopening fails exactly when a non-empty order is stored without names; it rebuilds a list exactly when a non-empty order is stored, with one item per saved name: item `k` has name piece `k` as id, nothing typed, and order piece `k` as `col_num`, or the text `undefined` once the order runs out; the row-header options are those for the number of names and the stored count, and there are none when no list is rebuilt; the boxes are restored |
| Dialog.ShortOrderRebuildsUnreadable | public/js/dialog.js:88-93 | when fewer order pieces than names are saved, the reopened list's last entry gets a `col_num` that does not read as a number |
| Dialog.SaveThenReopenRestoresChecks | public/js/dialog.js:17-75 | reopening the dialog after a save ticks exactly the boxes that were ticked at the save |
| Dialog.SavedColumnsSplitBack | public/js/dialog.js:273-305 | the saved order and names strings split back into the items' `col_num`s and titles |
| Dialog.SavedColumnCountsAgree | public/js/dialog.js:273-305 | the saved order and names strings have the same number of pieces |
| Dialog.FreshListSavesNaturalOrder | public/js/dialog.js:142-162 | saving an undragged fresh list of `n` fields stores exactly the pieces `1`, `2`, …, `n`, in decimal without leading zeros, joined with bars, whatever the field names hold |
| Dialog.FreshListSavesFieldNames | public/js/dialog.js:284-296 | saving an untyped fresh list stores the field names as titles, when none of them holds a bar |
| Dialog.EmptySaveReopensNothing | public/js/dialog.js:86-105 | saving an empty list stores two empty strings, and reopening then rebuilds no list and offers no row-header options, as if no order had been saved |
| Dialog.ReopenRebuildsSavedList | public/js/dialog.js:86-98 | reopening after a save rebuilds the list: same `col_num`s in the same order, each titled with the title that was saved |
| Dialog.SaveReopenSaveIsStable | public/js/dialog.js:86-98 | saving the reopened list again, without changes, stores the same order and names strings |
| MainView.Plan | public/js/index.js:56-78 | no fetch without a stored non-empty worksheet name, and none for a name the dashboard does not have; otherwise it fetches that worksheet, with underlying data exactly when `underlying` is `1`, and passes the stored row limit |
| MainView.MakeArray | public/js/index.js:446-452 | the scratch grid has `d2` rows of `d1` empty cells |
| MainView.ApplyColumnOrder | public/js/index.js:113-121 | the reference for the fill loop: it fails exactly when there is a row and some display position below the column count has no fitting order entry; otherwise every row has one cell per column and cell `(i, j)` is source cell `order[j]` of row `i`; `FillTableData` is proved equal to it |
| MainView.FillTableData | public/js/index.js:113-121 | the loop as written fails exactly when there is a row and some display position below the live column count has a missing, non-numeric or out-of-range order entry; otherwise cell `(i, j)` is source cell `order[j]` of row `i` |
| MainView.ParseAll | public/js/index.js:119 | all pieces read as numbers, or none of the result exists; the numbers are the pieces' values, in order |
| MainView.ColumnsAsWritten | public/js/index.js:104-121 | the title and grid computation as written: missing settings fail, and an unreadable order fails when there is a row; no other error occurs; otherwise the titles are all saved names, however many there are, and cell `(i, j)` is source cell `order[j]` of row `i` |
| MainView.StaleOrderShowsExtraTitle | public/js/index.js:113-121 | with order pieces 2, 1, 3 and names b, a, c saved for three columns, a worksheet with two columns renders as written with three titles over two-cell rows; the checked decoder refuses it |
| MainView.DecodeColumns | public/js/index.js:104-121 | missing settings give `MissingColumnSettings`; a stale order (wrong count of names or entries, or not a permutation of the live columns) gives `StaleColumnOrder`; otherwise one title per column, and every row reordered by the saved order |
| MainView.DecodedRowsArePermutations | public/js/index.js:115-121 | every decoded row holds exactly the cells of its source row, each as often |
| MainView.DecodeAgreesWithAsWritten | public/js/index.js:113-121 | whenever the checked decoder accepts, the loop as written produces the same grid |
| MainView.DecodeRefinesAsWritten | public/js/index.js:104-121 | whenever the checked decoder accepts, the whole computation as written gives the same titles and grid |
| MainView.EnabledButtonsSpec | public/js/index.js:135-155 | filtering the button list keeps exactly the buttons whose setting is `"Y"`, in the original order |
| MainView.Buttons | public/js/index.js:135-155 | a button is offered exactly when its export key reads `"Y"`, in the order copy, csv, excel, pdf, print |
| MainView.Options | public/js/index.js:157-265 | the widget gets `dom` `Bfrtip` exactly when some button is on; the button names are those buttons in order; row grouping is on only for summary data with buttons (only the summary branch passes `rowGroup`); the classes are the stored `table-classes` |
| MainView.Render | public/js/index.js:98-262 | the corrected render: it succeeds exactly when the checked decoder accepts the saved columns, failing with the decoder's error otherwise; its columns and options are the decoded columns and the widget options |
| Accessibility.PageEntries | public/js/index.js:389-402 | the range announced for page `p` starts at entry `(p-1)*perPage+1` and never passes the total; it spans a full page unless that would pass the total, in which case it ends at the total |
| Accessibility.PagesFollowEachOther | public/js/index.js:396-397 | the next page starts right after a full page, so announced ranges never overlap |
| Accessibility.EntryIsOnItsPage | public/js/index.js:396-402 | every entry `1..total` falls in the range announced for its page |
| Accessibility.AriaSort | public/js/index.js:429 | `asc` announces `ascending`, `desc` announces `descending`, anything else announces `other` |
| Configuration.DraggedNumbersParse | public/js/dialog.js:142-172 | after dragging a fresh list, display position `j` carries exactly the decimal text of `moves[j]`, which reads back as `moves[j]` and holds no bar |
| Configuration.ConfiguredLabels | public/js/dialog.js:284-296 | the title saved for display position `j` is the typed text, or the name of the field dragged there when nothing was typed |
| Configuration.ConfiguredColumnsFit | public/js/index.js:113-121 | after configuring a worksheet, the saved order reads back as the drag, and the checked decoder accepts it |
| Configuration.ConfiguredTitles | public/js/index.js:104-107 | after configuring, the main view's titles are the titles chosen in the dialog |
| Configuration.ConfigureThenRender | public/js/index.js:104-121 | after configuring, rendering the same worksheet gives the chosen titles, and shows in column `j` the field dragged to position `j` |
| Configuration.SavedWorksheetIsFetched | public/js/index.js:56-78 | a worksheet saved in the dialog is the one the main view fetches, with the saved data kind and row limit |
| Configuration.SavedExportsBecomeButtons | public/js/index.js:135-155 | the main view offers exactly the export buttons ticked in the dialog |
| Configuration.ReorderExample | public/js/dialog.js:268-272 | an instance of the documented third, first, second reorder, with titles typed: fresh fields `A,B,C` dragged to third, first, second and retitled `c,a,b` save as the order pieces 3, 1, 2 and the titles c, a, b, and render row `a1,b1,c1` as `c1,a1,b1` |

## Left out

- The Tableau Extensions API calls are left out: initialisation, `getSummaryDataAsync`/`getUnderlyingDataAsync`, `saveAsync`, `closeDialog` and the event listeners. The fetched table is a parameter (`Table`), and saving is a pure map update.
- Concurrency is left out, including a render that starts before the previous one ends.
- DOM, jQuery, Materialize and DataTables are left out: widget construction, `destroy`, tabs, the drop-downs and the HTML strings. The model keeps only the values passed to them.
- HTML markup and escaping are left out. A field name with a quote or `<` would break the generated markup. The model treats names as opaque strings.
- The drag gesture is a permutation of the list, not a sequence of mouse events.
- The accessibility patches that only edit the DOM are left out (labels, captions, the row-header `role` slice at `public/js/index.js:340-349`). Only the page-range and sort-direction computations are modelled.
- MainView.Plan: `underlying == 1` uses JavaScript's loose equality. The model reads `underlying` as the exact text `1`. Other texts that JavaScript would coerce to `1` (such as `01`) are not modelled.
- Dialog.RowHeaderOptions: the stored row-header count is compared with loose equality too. The model reads it as a decimal digit string, so texts with surrounding spaces or other numeric spellings are not modelled.
- Decimal.ParseNat: JavaScript's `Number` coercion in `column_order[j]-1` also accepts whitespace, signs, hexadecimal and exponents. The model reads only non-empty decimal digit strings. The dialog itself writes only decimal counters, or copies back pieces it read.
- MainView.FillTableData: the grid is sized by `totalRowCount`, and the model takes that to be the number of fetched rows.
- Accessibility.PageEntries: a page length of `-1` ("show all") is excluded by the precondition `perPage >= 1`.
- Dialog.SavedColumnsSplitBack: a field or title containing `|` does not survive the round trip, because `|` is the separator. The round-trip lemmas require `|`-free pieces.
- MainView.Render: it refuses saved columns that the code shows without an error: an order longer than the column count, an order with a repeated column, a names count different from the column count, and, on a worksheet with no rows, any saved columns that do not fit it (`ColumnsFit` false). `ColumnsAsWritten` models what the code shows for those.
- The code has no natural-order fallback: a missing `column_order` or `column_names` throws. The model follows the code, and `DecodeColumns` answers `MissingColumnSettings`.
- The reset button is commented out in the source and is not modelled.

## Findings

| source | as written | input that shows it | evidently intended | confidence | as-written member | corrected member |
|---|---|---|---|---|---|---|
| public/js/index.js:113-121 | The main view titles the table with every saved name and reads only the first `n` order entries, where `n` is the live column count. It never checks the saved order against the worksheet's current columns. | Save order pieces 2, 1, 3 and names b, a, c for a three-column worksheet; the worksheet then loses its last column (`A,B`, row `a1,b1`). The render gets three titles `b,a,c` over rows `[b1,a1]` of two cells. | A saved order is used only when it is a permutation of the live columns and matches the names one for one; otherwise the render refuses it | medium, not executed | MainView.StaleOrderShowsExtraTitle | MainView.DecodeRefinesAsWritten |

=== FILE: accessibility.dfy ===
/** The two pure computations of the draw callback's accessibility patch: the
    entry range announced for a page button, and the `aria-sort` value. */
module Accessibility {

  /** Entries `first..last` (one-based) of a page. */
  datatype EntryRange = EntryRange(first: int, last: int)

  /** The range announced for page button `page` when `perPage` entries fit on
      a page and the table holds `total`: the page's first entry, and its
      last one cut back to `total` on a page that is not full. */
  function PageEntries(page: nat, perPage: nat, total: nat): (r: EntryRange)
    requires page >= 1 && perPage >= 1
    ensures r.first == (page - 1) * perPage + 1
    ensures 1 <= r.first
    ensures r.last <= total
    ensures r.last <= r.first + perPage - 1
    ensures r.first <= total ==> r.first <= r.last
    ensures r.first + perPage - 1 <= total ==> r.last - r.first + 1 == perPage
    ensures r.first + perPage - 1 > total ==> r.last == total
  {
    var first := (page - 1) * perPage + 1;
    var last := first + perPage - 1;
    EntryRange(first, if last > total then total else last)
  }

  /** Page `p + 1` starts right after page `p` would end if it were full, so
      pages never overlap. */
  lemma PagesFollowEachOther(page: nat, perPage: nat, total: nat)
    requires page >= 1 && perPage >= 1
    ensures PageEntries(page + 1, perPage, total).first == PageEntries(page, perPage, total).first + perPage
    ensures PageEntries(page, perPage, total).last < PageEntries(page + 1, perPage, total).first
  {
  }

  /** Every entry `1..total` is announced on the page it falls on. */
  lemma {:induction false} EntryIsOnItsPage(k: nat, perPage: nat, total: nat)
    requires 1 <= k <= total && perPage >= 1
    ensures var r := PageEntries((k - 1) / perPage + 1, perPage, total);
      r.first <= k <= r.last
  {
    var q := (k - 1) / perPage;
    var m := (k - 1) % perPage;
    assert k - 1 == q * perPage + m;
    assert (q + 1 - 1) * perPage + 1 == q * perPage + 1;
  }

  /** The `aria-sort` value for a sort direction of the table widget. */
  function AriaSort(direction: string): (sort: string)
    ensures sort == "ascending" <==> direction == "asc"
    ensures sort == "descending" <==> direction == "desc"
    ensures sort == "other" <==> direction != "asc" && direction != "desc"
  {
    if direction == "asc" then "ascending"
    else if direction == "desc" then "descending"
    else "other"
  }
}

=== FILE: configuration.dfy ===
/** End-to-end behaviour: what the dialog saves is what the main view renders. */
module Configuration {
  import opened Wrappers
  import opened Delimited
  import opened Decimal
  import opened Permutations
  import opened SettingsStore
  import opened Dialog
  import opened MainView

  /** Reading back the numbers written by dragging an initial list gives the drag. */
  lemma DraggedNumbersParse(fields: seq<string>, moves: seq<nat>, texts: seq<string>)
    requires IsPermutation(moves, |fields|) && |texts| == |fields|
    ensures var items := Relabel(Drag(FreshList(fields), moves), texts);
      && Clean(ColNums(items), Bar)
      && ParseAll(ColNums(items)) == Some(moves)
      && forall j :: 0 <= j < |items| ==> ColNums(items)[j] == Show(moves[j])
  {
    var initial := FreshList(fields);
    var items := Relabel(Drag(initial, moves), texts);
    var nums := ColNums(items);
    forall j | 0 <= j < |nums|
      ensures ParseNat(nums[j]) == Some(moves[j]) && Bar !in nums[j]
    {
      assert nums[j] == initial[moves[j] - 1].colNum;
    }
    var parsed := ParseAll(nums);
    assert parsed.Some?;
    assert parsed.value == moves;
  }

  /** The saved column strings of a configured worksheet split back into the
      dragged numbers and the labels, and so fit that worksheet. */
  lemma ConfiguredColumnsFit(prev: Settings, form: Form, moves: seq<nat>, texts: seq<string>, t: Table)
    requires WellFormed(t) && |t.columns| >= 1
    requires IsPermutation(moves, |t.columns|) && |texts| == |t.columns|
    requires form.columns == Relabel(Drag(FreshList(t.columns), moves), texts)
    requires Clean(Labels(form.columns), Bar)
    ensures var s := Save(prev, form);
      && ColumnOrderKey in s && ColumnNamesKey in s
      && Split(s[ColumnNamesKey], Bar) == Labels(form.columns)
      && ParseAll(Split(s[ColumnOrderKey], Bar)) == Some(moves)
      && DecodeColumns(s, t).Ok?
  {
    PermutationInRange(moves, |t.columns|);
    DraggedNumbersParse(t.columns, moves, texts);
    SavedColumnsSplitBack(prev, form);
    var s := Save(prev, form);
    assert ColumnsFit(Split(s[ColumnNamesKey], Bar), Split(s[ColumnOrderKey], Bar), |t.columns|);
  }

  /** The labels saved for a configured worksheet are the typed texts, or
      the field names where nothing was typed. */
  lemma ConfiguredLabels(fields: seq<string>, moves: seq<nat>, texts: seq<string>)
    requires IsPermutation(moves, |fields|) && |texts| == |fields|
    ensures var items := Relabel(Drag(FreshList(fields), moves), texts);
      && |Labels(items)| == |fields|
      && forall j :: 0 <= j < |fields| ==>
           Labels(items)[j] == if |texts[j]| > 0 then texts[j] else fields[moves[j] - 1]
  {
    var initial := FreshList(fields);
    var items := Relabel(Drag(initial, moves), texts);
    forall j | 0 <= j < |fields|
      ensures Labels(items)[j] == if |texts[j]| > 0 then texts[j] else fields[moves[j] - 1]
    {
      assert items[j].id == initial[moves[j] - 1].id;
    }
  }

  lemma ConfiguredTitles(prev: Settings, form: Form, moves: seq<nat>, texts: seq<string>, t: Table)
    requires WellFormed(t) && |t.columns| >= 1
    requires IsPermutation(moves, |t.columns|) && |texts| == |t.columns|
    requires form.columns == Relabel(Drag(FreshList(t.columns), moves), texts)
    requires Clean(Labels(form.columns), Bar)
    ensures var r := DecodeColumns(Save(prev, form), t);
      && r.Ok?
      && |r.value.titles| == |t.columns|
      && forall j :: 0 <= j < |t.columns| ==>
           r.value.titles[j] == if |texts[j]| > 0 then texts[j] else t.columns[moves[j] - 1]
  {
    ConfiguredColumnsFit(prev, form, moves, texts, t);
    ConfiguredLabels(t.columns, moves, texts);
    var r := DecodeColumns(Save(prev, form), t);
    assert r.value.titles == Labels(form.columns);
  }

  /** Configuring a worksheet, dragging its columns into any order and typing
      any labels, then saving, makes the next render of that worksheet show
      the typed labels (field names where nothing was typed) as headers, and
      in every row display cell `j` is the source cell the `j`-th entry was
      dragged from; every row keeps exactly its own cells. */
  lemma ConfigureThenRender(prev: Settings, form: Form, moves: seq<nat>, texts: seq<string>, t: Table)
    requires WellFormed(t) && |t.columns| >= 1
    requires IsPermutation(moves, |t.columns|) && |texts| == |t.columns|
    requires form.columns == Relabel(Drag(FreshList(t.columns), moves), texts)
    requires Clean(Labels(form.columns), Bar)
    ensures |moves| == |t.columns| && InRange(moves, |t.columns|)
    ensures var r := DecodeColumns(Save(prev, form), t);
      && r.Ok?
      && |r.value.titles| == |t.columns|
      && (forall j :: 0 <= j < |t.columns| ==>
            r.value.titles[j] == if |texts[j]| > 0 then texts[j] else t.columns[moves[j] - 1])
      && (forall i, j :: 0 <= i < |t.rows| && 0 <= j < |t.columns| ==>
            r.value.grid[i][j] == t.rows[i][moves[j] - 1])
      && forall i :: 0 <= i < |t.rows| ==> multiset(r.value.grid[i]) == multiset(t.rows[i])
  {
    ConfiguredTitles(prev, form, moves, texts, t);
    ConfiguredColumnsFit(prev, form, moves, texts, t);
    var s := Save(prev, form);
    DecodedRowsArePermutations(s, t);
  }

  /** Once a worksheet has been saved, a render fetches that worksheet, with
      the saved row limit and data kind. */
  lemma SavedWorksheetIsFetched(prev: Settings, form: Form, worksheets: seq<string>)
    requires form.worksheet != "" && form.worksheet in worksheets
    ensures Plan(Save(prev, form), worksheets) ==
      Ok(Request(form.worksheet, form.underlying == "1", Some(form.maxRecords)))
  {
    SaveStoresFields(prev, form);
  }

  /** Once saved, an export button is offered exactly when its box was ticked. */
  lemma SavedExportsBecomeButtons(prev: Settings, form: Form)
    ensures forall e: Export :: e in Buttons(Save(prev, form)) <==> e.Setting() in form.checked
  {
    SaveStoresFlags(prev, form);
  }

  lemma ExampleNumbers()
    ensures Show(1) == "1" && Show(2) == "2" && Show(3) == "3"
    ensures Iota(3) == [1, 2, 3]
  {
  }

  lemma ExampleMoves()
    ensures IsPermutation([3, 1, 2], 3)
  {
    ExampleNumbers();
    var moves: seq<nat> := [3, 1, 2];
    assert multiset(moves) == multiset(Iota(3));
  }

  lemma ExampleFresh()
    ensures FreshList(["A", "B", "C"]) == [Item("1", "", "A"), Item("2", "", "B"), Item("3", "", "C")]
  {
    ExampleNumbers();
  }

  lemma ExampleDrag(initial: seq<Item>)
    requires initial == [Item("1", "", "A"), Item("2", "", "B"), Item("3", "", "C")]
    ensures IsPermutation([3, 1, 2], |initial|)
    ensures Drag(initial, [3, 1, 2]) == [Item("3", "", "C"), Item("1", "", "A"), Item("2", "", "B")]
  {
    ExampleMoves();
    var d := Drag(initial, [3, 1, 2]);
    ExampleDragged(d, initial);
  }

  lemma ExampleDragged(d: seq<Item>, initial: seq<Item>)
    requires initial == [Item("1", "", "A"), Item("2", "", "B"), Item("3", "", "C")]
    requires |d| == 3 && d[0] == initial[2] && d[1] == initial[0] && d[2] == initial[1]
    ensures d == [Item("3", "", "C"), Item("1", "", "A"), Item("2", "", "B")]
  {
  }

  lemma ExampleRelabel(dragged: seq<Item>)
    requires dragged == [Item("3", "", "C"), Item("1", "", "A"), Item("2", "", "B")]
    ensures Relabel(dragged, ["c", "a", "b"]) == [Item("3", "c", "C"), Item("1", "a", "A"), Item("2", "b", "B")]
  {
  }

  /** The list of the worked example below after the drag and the typing. */
  lemma ExampleList()
    ensures IsPermutation([3, 1, 2], 3)
    ensures Relabel(Drag(FreshList(["A", "B", "C"]), [3, 1, 2]), ["c", "a", "b"])
      == [Item("3", "c", "C"), Item("1", "a", "A"), Item("2", "b", "B")]
  {
    ExampleFresh();
    var initial := FreshList(["A", "B", "C"]);
    ExampleDrag(initial);
    ExampleRelabel(Drag(initial, [3, 1, 2]));
  }

  lemma ExampleStrings(items: seq<Item>)
    requires items == [Item("3", "c", "C"), Item("1", "a", "A"), Item("2", "b", "B")]
    ensures Join(ColNums(items), Bar) == "3|1|2"
    ensures Join(Labels(items), Bar) == "c|a|b"
  {
    assert ColNums(items) == ["3", "1", "2"];
    assert ColNums(items)[1..] == ["1", "2"];
    assert Join(["1", "2"], Bar) == "1|2";
    assert Labels(items) == ["c", "a", "b"];
    assert Labels(items)[1..] == ["a", "b"];
    assert Join(["a", "b"], Bar) == "a|b";
  }

  /** Saving the example list writes `3|1|2` and `c|a|b`, which split back
      into the example's pieces. */
  lemma ExampleSaved(prev: Settings, form: Form)
    requires form.columns == [Item("3", "c", "C"), Item("1", "a", "A"), Item("2", "b", "B")]
    ensures Get(Save(prev, form), ColumnOrderKey) == Some("3|1|2")
    ensures Get(Save(prev, form), ColumnNamesKey) == Some("c|a|b")
    ensures Split(Save(prev, form)[ColumnOrderKey], Bar) == ["3", "1", "2"]
    ensures Split(Save(prev, form)[ColumnNamesKey], Bar) == ["c", "a", "b"]
  {
    ExampleStrings(form.columns);
    assert ColNums(form.columns) == ["3", "1", "2"];
    assert Labels(form.columns) == ["c", "a", "b"];
    ExampleSplit(["3", "1", "2"], "3|1|2");
    ExampleSplit(["c", "a", "b"], "c|a|b");
    SaveStoresFields(prev, form);
  }

  lemma ExampleSplit(pieces: seq<string>, joined: string)
    requires pieces == ["3", "1", "2"] || pieces == ["c", "a", "b"]
    requires Join(pieces, Bar) == joined
    ensures Split(joined, Bar) == pieces
  {
    assert forall k :: 0 <= k < |pieces| ==> |pieces[k]| == 1 && pieces[k][0] != Bar;
    SplitJoin(pieces, Bar);
  }

  lemma ExampleParse()
    ensures ParseAll(["3", "1", "2"]) == Some([3, 1, 2])
  {
    ExampleNumbers();
    ParseShow(1);
    ParseShow(2);
    ParseShow(3);
    var pieces := ["3", "1", "2"];
    assert ParseNat(pieces[0]) == Some(3) && ParseNat(pieces[1]) == Some(1) && ParseNat(pieces[2]) == Some(2);
    var r := ParseAll(pieces);
    assert r.Some?;
    assert r.value[0] == 3 && r.value[1] == 1 && r.value[2] == 2;
    var expected: seq<nat> := [3, 1, 2];
    assert r.value == expected;
  }

  /** Settings holding `3|1|2` and `c|a|b` show the row `a1, b1, c1` as
      `c1, a1, b1` under the titles `c, a, b`. */
  lemma ExampleGrid(grid: seq<seq<string>>, rows: seq<seq<string>>, order: seq<nat>)
    requires rows == [["a1", "b1", "c1"]] && order == [3, 1, 2]
    requires |grid| == 1 && grid[0] == Pick(rows[0], order)
    ensures grid == [["c1", "a1", "b1"]]
  {
    assert Pick(rows[0], order) == ["c1", "a1", "b1"];
  }

  lemma ExampleFits(s: Settings, t: Table)
    requires ColumnOrderKey in s && ColumnNamesKey in s
    requires Split(s[ColumnOrderKey], Bar) == ["3", "1", "2"]
    requires Split(s[ColumnNamesKey], Bar) == ["c", "a", "b"]
    requires |t.columns| == 3 && WellFormed(t)
    ensures ParseAll(Split(s[ColumnOrderKey], Bar)) == Some([3, 1, 2])
    ensures DecodeColumns(s, t).Ok?
  {
    ExampleParse();
    ExampleMoves();
    var names := Split(s[ColumnNamesKey], Bar);
    var pieces := Split(s[ColumnOrderKey], Bar);
    assert ColumnsFit(names, pieces, 3);
  }

  /** Settings whose saved pieces are `3, 1, 2` and `c, a, b` show the row
      `a1, b1, c1` as `c1, a1, b1` under the titles `c, a, b`. */
  lemma ExampleRender(s: Settings, t: Table)
    requires ColumnOrderKey in s && ColumnNamesKey in s
    requires Split(s[ColumnOrderKey], Bar) == ["3", "1", "2"]
    requires Split(s[ColumnNamesKey], Bar) == ["c", "a", "b"]
    requires |t.columns| == 3 && t.rows == [["a1", "b1", "c1"]]
    ensures WellFormed(t)
    ensures DecodeColumns(s, t) == Ok(Columns(["c", "a", "b"], [["c1", "a1", "b1"]]))
  {
    assert WellFormed(t);
    ExampleFits(s, t);
    var o: seq<nat> := [3, 1, 2];
    var r := DecodeColumns(s, t);
    assert ParseAll(Split(s[ColumnOrderKey], Bar)).value == o;
    DecodedRowsArePicks(s, t);
    ExampleGrid(r.value.grid, t.rows, o);
    assert r.value.titles == Split(s[ColumnNamesKey], Bar);
    assert r == Ok(Columns(r.value.titles, r.value.grid));
  }

  /** Worksheet columns A, B, C, dragged to C, A, B and labelled c, a, b, are
      saved as `3|1|2` and `c|a|b`, and the row `a1, b1, c1` is then shown as
      `c1, a1, b1`. */
  lemma ReorderExample(prev: Settings, form: Form)
    requires IsPermutation([3, 1, 2], 3)
    requires form.columns == Relabel(Drag(FreshList(["A", "B", "C"]), [3, 1, 2]), ["c", "a", "b"])
    ensures Get(Save(prev, form), ColumnOrderKey) == Some("3|1|2")
    ensures Get(Save(prev, form), ColumnNamesKey) == Some("c|a|b")
    ensures var t := Table(["A", "B", "C"], [["a1", "b1", "c1"]]);
      DecodeColumns(Save(prev, form), t) == Ok(Columns(["c", "a", "b"], [["c1", "a1", "b1"]]))
  {
    ExampleList();
    ExampleSaved(prev, form);
    ExampleRender(Save(prev, form), Table(["A", "B", "C"], [["a1", "b1", "c1"]]));
  }
}

=== FILE: decimal.dfy ===
/** Column numbers travel as decimal text: the dialog writes the counter into
    the `col_num` attribute, and the main view turns each `column_order`
    piece back into a number when it subtracts one from it. */
module Decimal {
  import opened Wrappers

  predicate IsDigit(c: char)
  {
    '0' <= c <= '9'
  }

  predicate AllDigits(s: string)
  {
    forall k :: 0 <= k < |s| ==> IsDigit(s[k])
  }

  function DigitChar(d: nat): (c: char)
    requires d < 10
    ensures IsDigit(c)
  {
    (48 + d) as char
  }

  function DigitValue(c: char): (d: nat)
    requires IsDigit(c)
    ensures d < 10 && DigitChar(d) == c
  {
    c as int - 48
  }

  /** Decimal rendering of a number, as JavaScript writes a counter into
      markup: no sign, no leading zeros. */
  function Show(n: nat): (s: string)
    ensures |s| >= 1 && AllDigits(s)
    ensures |s| > 1 ==> s[0] != '0'
  {
    if n < 10 then [DigitChar(n)]
    else Show(n / 10) + [DigitChar(n % 10)]
  }

  /** Value of a string of decimal digits, most significant first. */
  function Value(s: string): nat
    requires AllDigits(s)
  {
    if |s| == 0 then 0
    else Value(s[..|s| - 1]) * 10 + DigitValue(s[|s| - 1])
  }

  /** A settings piece read as a column number: a non-empty run of decimal
      digits denotes its value; anything else denotes no number. */
  function ParseNat(s: string): (r: Option<nat>)
    ensures r.Some? <==> |s| >= 1 && AllDigits(s)
  {
    if |s| >= 1 && AllDigits(s) then Some(Value(s)) else None
  }

  /** Reading back what was written gives the number that was written. */
  lemma {:induction false} ParseShow(n: nat)
    ensures ParseNat(Show(n)) == Some(n)
    decreases n
  {
    if n >= 10 {
      var s := Show(n);
      assert s[..|s| - 1] == Show(n / 10);
      ParseShow(n / 10);
      assert Value(s) == Value(Show(n / 10)) * 10 + n % 10;
    }
  }

  /** A rendered number holds no separator of the column settings. */
  lemma ShowHasNoBar(n: nat)
    ensures '|' !in Show(n)
  {
  }

  /** Every number from 1 to `n` is written as text that reads back as
      itself and holds no separator. */
  lemma ShowAll(n: nat)
    ensures forall k :: 1 <= k <= n ==> ParseNat(Show(k)) == Some(k) && '|' !in Show(k)
  {
    forall k | 1 <= k <= n
      ensures ParseNat(Show(k)) == Some(k) && '|' !in Show(k)
    {
      ParseShow(k);
      ShowHasNoBar(k);
    }
  }
}

=== FILE: delimited.dfy ===
/** Strings made of pieces separated by one character: `column_order` and
    `column_names` are `|`-separated, `table-classes` is space-separated.
    `Join` is how the settings dialog builds them and `Split` is JavaScript's
    `String.prototype.split` with a one-character separator. */
module Delimited {

  /** The separator of the two column settings. */
  const Bar: char := '|'

  /** Pieces glued together with `sep` between neighbours and no leading or
      trailing separator; the empty list gives the empty string. */
  function Join(pieces: seq<string>, sep: char): string
  {
    if |pieces| == 0 then ""
    else if |pieces| == 1 then pieces[0]
    else pieces[0] + [sep] + Join(pieces[1..], sep)
  }

  /** True when no piece contains the separator. */
  predicate Clean(pieces: seq<string>, sep: char)
  {
    forall k :: 0 <= k < |pieces| ==> sep !in pieces[k]
  }

  /** Position of the first occurrence of `c` in `s`. */
  function IndexOf(s: string, c: char): (i: nat)
    requires c in s
    ensures i < |s| && s[i] == c && c !in s[..i]
  {
    if s[0] == c then 0
    else
      assert c in s[1..] by { var k :| 0 <= k < |s| && s[k] == c; assert s[1..][k - 1] == c; }
      1 + IndexOf(s[1..], c)
  }

  /** JavaScript `s.split(sep)`: the maximal separator-free pieces between
      separators, in order. There is always at least one piece (`""` splits
      into `[""]`), and gluing the pieces back together gives `s`. */
  function Split(s: string, sep: char): (pieces: seq<string>)
    ensures |pieces| >= 1
    ensures Clean(pieces, sep)
    ensures Join(pieces, sep) == s
    decreases |s|
  {
    if sep !in s then [s]
    else
      var i := IndexOf(s, sep);
      var rest := Split(s[i + 1..], sep);
      assert ([s[..i]] + rest)[1..] == rest;
      assert s == s[..i] + [sep] + s[i + 1..];
      [s[..i]] + rest
  }

  /** Splitting a joined, separator-free, non-empty list of pieces gives the
      list back. The empty list is the exception: it joins to `""`, which
      splits into one empty piece. */
  lemma {:induction false} SplitJoin(pieces: seq<string>, sep: char)
    requires |pieces| >= 1
    requires Clean(pieces, sep)
    ensures Split(Join(pieces, sep), sep) == pieces
    decreases |pieces|
  {
    if |pieces| > 1 {
      var s := Join(pieces, sep);
      var head := pieces[0];
      assert s == head + [sep] + Join(pieces[1..], sep);
      assert s[|head|] == sep;
      var i := IndexOf(s, sep);
      assert i == |head|;
      assert s[..i] == head;
      assert s[i + 1..] == Join(pieces[1..], sep);
      SplitJoin(pieces[1..], sep);
      assert pieces == [head] + pieces[1..];
    }
  }

  /** Appending a piece to a non-empty list appends a separator and the piece
      to the joined string: the shape of the dialog's accumulating loop. */
  lemma {:induction false} JoinSnoc(pieces: seq<string>, last: string, sep: char)
    requires |pieces| >= 1
    ensures Join(pieces + [last], sep) == Join(pieces, sep) + [sep] + last
    decreases |pieces|
  {
    if |pieces| > 1 {
      assert (pieces + [last])[1..] == pieces[1..] + [last];
      JoinSnoc(pieces[1..], last, sep);
    } else {
      assert (pieces + [last])[1..] == [last];
    }
  }

  /** Two lists of the same length whose joins are split back give lists of
      the same length, whatever the length (the empty case included). */
  lemma SplitCountsAgree(xs: seq<string>, ys: seq<string>, sep: char)
    requires |xs| == |ys|
    requires Clean(xs, sep) && Clean(ys, sep)
    ensures |Split(Join(xs, sep), sep)| == |Split(Join(ys, sep), sep)|
  {
    if |xs| >= 1 {
      SplitJoin(xs, sep);
      SplitJoin(ys, sep);
    }
  }
}

=== FILE: dialog.dfy ===
/** The settings dialog: the reorderable column list, what "Save" writes into
    the settings, and how the dialog rebuilds itself from them when reopened. */
module Dialog {
  import opened Wrappers
  import opened Delimited
  import opened Decimal
  import opened Permutations
  import opened SettingsStore

  /** One entry of the reorderable column list: the hidden `col_num`
      attribute, the text typed into the entry's input, and the input's id. */
  datatype Item = Item(colNum: string, typed: string, id: string)

  /** The name saved for an entry: the typed text, or the id when nothing was
      typed. */
  function Label(item: Item): string
  {
    if |item.typed| > 0 then item.typed else item.id
  }

  function ColNums(items: seq<Item>): (r: seq<string>)
    ensures |r| == |items|
  {
    seq(|items|, k requires 0 <= k < |items| => items[k].colNum)
  }

  function Labels(items: seq<Item>): (r: seq<string>)
    ensures |r| == |items|
  {
    seq(|items|, k requires 0 <= k < |items| => Label(items[k]))
  }

  /** The list built when a worksheet is picked: one entry per source column,
      in source order, numbered from 1, nothing typed, each named after its
      field. */
  function FreshList(fields: seq<string>): (items: seq<Item>)
    ensures |items| == |fields|
    ensures forall k :: 0 <= k < |items| ==>
      && items[k].colNum == Show(k + 1)
      && ParseNat(items[k].colNum) == Some(k + 1)
      && Bar !in items[k].colNum
      && items[k].typed == ""
      && items[k].id == fields[k]
      && Label(items[k]) == fields[k]
  {
    ShowAll(|fields|);
    seq(|fields|, k requires 0 <= k < |fields| => Item(Show(k + 1), "", fields[k]))
  }

  /** Dragging entries around: the list rearranged by a permutation `moves`
      of its positions (one-based), entry `j` of the result being entry
      `moves[j]` of the list before. */
  function Drag(items: seq<Item>, moves: seq<nat>): (r: seq<Item>)
    requires IsPermutation(moves, |items|)
    ensures multiset(r) == multiset(items)
    ensures |r| == |moves| == |items| && InRange(moves, |items|)
    ensures forall j :: 0 <= j < |r| ==> r[j] == items[moves[j] - 1]
  {
    PickPermutation(items, moves);
    Pick(items, moves)
  }

  /** Typing into the inputs: each entry gets new text; its number and id stay. */
  function Relabel(items: seq<Item>, texts: seq<string>): (r: seq<Item>)
    requires |texts| == |items|
    ensures ColNums(r) == ColNums(items)
    ensures forall k :: 0 <= k < |r| ==> r[k].id == items[k].id && r[k].typed == texts[k]
  {
    seq(|items|, k requires 0 <= k < |items| => items[k].(typed := texts[k]))
  }

  /** The loop of the save handler that walks the list once and builds
      `column_order` and `column_names` side by side, writing a separator
      before every entry but the first. */
  method EncodeColumns(items: seq<Item>) returns (order: string, names: string)
    ensures order == Join(ColNums(items), Bar)
    ensures names == Join(Labels(items), Bar)
  {
    order, names := "", "";
    var counter := 0;
    while counter < |items|
      invariant 0 <= counter <= |items|
      invariant order == Join(ColNums(items)[..counter], Bar)
      invariant names == Join(Labels(items)[..counter], Bar)
    {
      var item := items[counter];
      assert ColNums(items)[..counter + 1] == ColNums(items)[..counter] + [item.colNum];
      assert Labels(items)[..counter + 1] == Labels(items)[..counter] + [Label(item)];
      if counter == 0 {
        order := item.colNum;
      } else {
        JoinSnoc(ColNums(items)[..counter], item.colNum, Bar);
        order := order + [Bar] + item.colNum;
      }
      if counter == 0 {
        if |item.typed| > 0 {
          names := item.typed;
        } else {
          names := item.id;
        }
      } else {
        JoinSnoc(Labels(items)[..counter], Label(item), Bar);
        if |item.typed| > 0 {
          names := names + [Bar] + item.typed;
        } else {
          names := names + [Bar] + item.id;
        }
      }
      counter := counter + 1;
    }
    assert ColNums(items)[..counter] == ColNums(items);
    assert Labels(items)[..counter] == Labels(items);
  }

  // ---------------------------------------------------------------------
  // Display options and the `table-classes` string

  /** The display checkboxes in the order the save handler visits them. */
  const ClassOrder: seq<Flag> := [Compact, Hover, Nowrap, OrderColumn, RowBorder, Stripe, IncludeTableName]

  /** Position of a display checkbox in `ClassOrder`. */
  function ClassRank(f: Flag): nat
  {
    match f
    case Compact => 0
    case Hover => 1
    case Nowrap => 2
    case OrderColumn => 3
    case RowBorder => 4
    case Stripe => 5
    case IncludeTableName => 6
    case _ => 7
  }

  /** Whether a display checkbox puts its class on the table: `nowrap` is
      the one whose class is added when the box is NOT checked. */
  predicate ClassShown(f: Flag, checked: set<Flag>)
  {
    if f == Nowrap then f !in checked else f in checked
  }

  /** The flags of `fs` whose class is shown, in the order of `fs`: the save
      handler's run of checks, one per display option. */
  function ShownFlags(fs: seq<Flag>, checked: set<Flag>): seq<Flag>
  {
    if |fs| == 0 then []
    else (if ClassShown(fs[0], checked) then [fs[0]] else []) + ShownFlags(fs[1..], checked)
  }

  /** Increasing position in the save order. */
  predicate Ascending(fs: seq<Flag>)
  {
    forall i, j :: 0 <= i < j < |fs| ==> ClassRank(fs[i]) < ClassRank(fs[j])
  }

  /** Filtering keeps exactly the shown flags and keeps their order. */
  lemma {:induction false} ShownFlagsSpec(fs: seq<Flag>, checked: set<Flag>)
    ensures forall f :: f in ShownFlags(fs, checked) <==> f in fs && ClassShown(f, checked)
    ensures Ascending(fs) ==> Ascending(ShownFlags(fs, checked))
    decreases |fs|
  {
    if |fs| > 0 {
      ShownFlagsSpec(fs[1..], checked);
      var rest := ShownFlags(fs[1..], checked);
      assert forall f :: f in fs <==> f == fs[0] || f in fs[1..];
      if Ascending(fs) {
        assert Ascending(fs[1..]);
        forall k | 0 <= k < |rest|
          ensures ClassRank(fs[0]) < ClassRank(rest[k])
        {
          assert rest[k] in fs[1..];
          var m :| 0 <= m < |fs[1..]| && fs[1..][m] == rest[k];
          assert fs[m + 1] == rest[k];
        }
      }
    }
  }

  /** The display options whose class goes into `table-classes`, in the
      order they are appended. */
  function ClassFlags(checked: set<Flag>): seq<Flag>
  {
    ShownFlags(ClassOrder, checked)
  }

  /** Words each preceded by one space. */
  function Prefixed(words: seq<string>): string
  {
    if |words| == 0 then "" else " " + words[0] + Prefixed(words[1..])
  }

  /** The class names for the checked display options. */
  function ClassNames(checked: set<Flag>): seq<string>
  {
    var fs := ClassFlags(checked);
    seq(|fs|, k requires 0 <= k < |fs| => fs[k].Key())
  }

  /** The `table-classes` setting: one space before each class name. */
  function TableClasses(checked: set<Flag>): (r: string)
    ensures r == "" <==> ClassNames(checked) == []
    ensures r != "" ==> r[0] == ' '
  {
    Prefixed(ClassNames(checked))
  }

  lemma {:induction false} PrefixedIsJoin(words: seq<string>)
    ensures Prefixed(words) == Join([""] + words, ' ')
    decreases |words|
  {
    if |words| == 1 {
      assert ([""] + words)[1..] == words;
    } else if |words| > 1 {
      PrefixedIsJoin(words[1..]);
      assert ([""] + words)[1..] == words;
      assert ([""] + words[1..])[1..] == words[1..];
    }
  }

  /** Read as a space-separated class list, `table-classes` is an empty
      leading word followed by the class names in save order. */
  lemma TableClassWords(checked: set<Flag>)
    ensures Split(TableClasses(checked), ' ') == [""] + ClassNames(checked)
  {
    var names := ClassNames(checked);
    PrefixedIsJoin(names);
    forall k | 0 <= k < |names| ensures ' ' !in names[k] {
      KeyHasNoSpace(ClassFlags(checked)[k]);
    }
    CleanAfterEmpty(names, ' ');
    SplitJoin([""] + names, ' ');
  }

  /** No checkbox key holds a space, so each is a single class name. */
  lemma KeyHasNoSpace(f: Flag)
    ensures ' ' !in f.Key()
  {
    match f
    case Compact => case Hover => case Nowrap => case OrderColumn =>
    case RowBorder => case Stripe => case IncludeTableName =>
    case ExportClipboard => case ExportExcel => case ExportCsv =>
    case ExportPdf => case ExportPrint =>
  }

  lemma CleanAfterEmpty(pieces: seq<string>, sep: char)
    requires Clean(pieces, sep)
    ensures Clean([""] + pieces, sep)
  {
    forall k | 0 <= k < |[""] + pieces| ensures sep !in ([""] + pieces)[k] {
      if k > 0 { assert ([""] + pieces)[k] == pieces[k - 1]; }
    }
  }

  /** `table-classes` names a display option's class exactly when that option
      is on (for `nowrap`: exactly when its box is off), and names them in the
      fixed save order. */
  lemma TableClassMembers(checked: set<Flag>)
    ensures forall f :: f in ClassOrder ==> (f.Key() in ClassNames(checked) <==> ClassShown(f, checked))
    ensures forall i, j :: 0 <= i < j < |ClassFlags(checked)| ==> ClassRank(ClassFlags(checked)[i]) < ClassRank(ClassFlags(checked)[j])
  {
    var names := ClassNames(checked);
    var fs := ClassFlags(checked);
    ShownFlagsSpec(ClassOrder, checked);
    FlagKeysDistinct();
    forall f | f in ClassOrder
      ensures f.Key() in names <==> ClassShown(f, checked)
    {
      if f.Key() in names {
        var k :| 0 <= k < |names| && names[k] == f.Key();
        assert fs[k] == f;
      }
      if ClassShown(f, checked) {
        var k :| 0 <= k < |fs| && fs[k] == f;
        assert names[k] == f.Key();
      }
    }
  }

  // ---------------------------------------------------------------------
  // Saving

  /** The state of the dialog's form when "Save" is pressed. */
  datatype Form = Form(
    worksheet: string,
    maxRecords: string,
    underlying: string,
    checked: set<Flag>,
    rowHeaderCount: string,
    columns: seq<Item>)

  /** Every key the save handler writes. */
  function WrittenKeys(): (keys: set<string>)
    ensures forall f: Flag :: f.Key() in keys
  {
    FlagKeysDistinct();
    PlainKeys + set f | f in AllFlags :: f.Key()
  }

  /** The data settings: worksheet, row limit and summary/underlying choice. */
  function SaveData(prev: Settings, form: Form): Settings
  {
    prev[WorksheetKey := form.worksheet]
        [MaxRecordsKey := form.maxRecords]
        [UnderlyingKey := form.underlying]
  }

  /** The export checkboxes, in the order the save handler writes them. */
  const ExportOrder: seq<Flag> := [ExportClipboard, ExportExcel, ExportCsv, ExportPdf, ExportPrint]

  /** Writes the checkboxes `fs` one after the other as `"Y"` / `"N"`. */
  function WriteFlags(prev: Settings, fs: seq<Flag>, checked: set<Flag>): Settings
    decreases |fs|
  {
    if |fs| == 0 then prev
    else WriteFlags(prev[fs[0].Key() := YesNo(fs[0] in checked)], fs[1..], checked)
  }

  /** Writing checkboxes leaves every key that is none of theirs alone. */
  lemma {:induction false} WriteFlagsKeeps(prev: Settings, fs: seq<Flag>, checked: set<Flag>, key: string)
    requires forall i :: 0 <= i < |fs| ==> fs[i].Key() != key
    ensures Get(WriteFlags(prev, fs, checked), key) == Get(prev, key)
    decreases |fs|
  {
    if |fs| > 0 {
      assert fs[0].Key() != key;
      WriteFlagsKeeps(prev[fs[0].Key() := YesNo(fs[0] in checked)], fs[1..], checked, key);
    }
  }

  /** Two different checkboxes are stored under different keys. */
  lemma KeysDiffer(f: Flag, g: Flag)
    requires f != g
    ensures f.Key() != g.Key()
  {
    FlagKeysDistinct();
  }

  /** Each written checkbox ends up stored with its own state. */
  lemma {:induction false} WriteFlagsStores(prev: Settings, fs: seq<Flag>, checked: set<Flag>, f: Flag)
    requires f in fs
    ensures Get(WriteFlags(prev, fs, checked), f.Key()) == Some(YesNo(f in checked))
    decreases |fs|
  {
    var next := prev[fs[0].Key() := YesNo(fs[0] in checked)];
    if f in fs[1..] {
      WriteFlagsStores(next, fs[1..], checked, f);
    } else {
      assert fs[0] == f;
      forall i | 0 <= i < |fs[1..]| ensures fs[1..][i].Key() != f.Key() {
        assert fs[1..][i] != f;
        KeysDiffer(fs[1..][i], f);
      }
      WriteFlagsKeeps(next, fs[1..], checked, f.Key());
    }
  }

  /** The display checkboxes, then the class string built from them. */
  function SaveDisplay(prev: Settings, checked: set<Flag>): Settings
  {
    WriteFlags(prev, ClassOrder, checked)[TableClassesKey := TableClasses(checked)]
  }

  /** The export checkboxes. */
  function SaveExports(prev: Settings, checked: set<Flag>): Settings
  {
    WriteFlags(prev, ExportOrder, checked)
  }

  /** The row-header count and the two column strings. */
  function SaveColumns(prev: Settings, form: Form): Settings
  {
    prev[RowHeaderKey := form.rowHeaderCount]
        [ColumnOrderKey := Join(ColNums(form.columns), Bar)]
        [ColumnNamesKey := Join(Labels(form.columns), Bar)]
  }

  /** The settings after "Save": the save handler's writes, in its order, on
      top of the settings as they were. */
  function Save(prev: Settings, form: Form): (s: Settings)
    ensures prev.Keys <= s.Keys
    ensures WorksheetKey in s && ColumnOrderKey in s && ColumnNamesKey in s
  {
    SaveColumns(SaveExports(SaveDisplay(SaveData(prev, form), form.checked), form.checked), form)
  }

  /** Each checkbox is stored as exactly `"Y"` when checked and `"N"` when not. */
  lemma SaveStoresFlags(prev: Settings, form: Form)
    ensures forall f: Flag :: Get(Save(prev, form), f.Key()) == Some(YesNo(f in form.checked))
  {
    forall f: Flag ensures Get(Save(prev, form), f.Key()) == Some(YesNo(f in form.checked)) {
      SaveStoresFlag(prev, form, f);
    }
  }

  lemma SaveStoresFlag(prev: Settings, form: Form, f: Flag)
    ensures Get(Save(prev, form), f.Key()) == Some(YesNo(f in form.checked))
  {
    var data := SaveData(prev, form);
    var display := SaveDisplay(data, form.checked);
    var exports := SaveExports(display, form.checked);
    SaveColumnsKeepsFlag(exports, form, f);
    if f in ExportOrder {
      WriteFlagsStores(display, ExportOrder, form.checked, f);
    } else {
      SaveDisplayStores(data, form.checked, f);
      SaveExportsKeepsDisplay(display, form.checked, f);
    }
  }

  /** The column writes leave every checkbox alone. */
  lemma SaveColumnsKeepsFlag(prev: Settings, form: Form, f: Flag)
    ensures Get(SaveColumns(prev, form), f.Key()) == Get(prev, f.Key())
  {
    FlagKeysDistinct();
    assert f.Key() !in PlainKeys;
  }

  /** The display writes store each display checkbox. */
  lemma SaveDisplayStores(prev: Settings, checked: set<Flag>, f: Flag)
    requires f !in ExportOrder
    ensures Get(SaveDisplay(prev, checked), f.Key()) == Some(YesNo(f in checked))
  {
    FlagKeysDistinct();
    assert f in ClassOrder;
    assert f.Key() != TableClassesKey by {
      assert f.Key() !in PlainKeys;
    }
    WriteFlagsStores(prev, ClassOrder, checked, f);
  }

  /** The export writes leave the display checkboxes alone. */
  lemma SaveExportsKeepsDisplay(prev: Settings, checked: set<Flag>, f: Flag)
    requires f !in ExportOrder
    ensures Get(SaveExports(prev, checked), f.Key()) == Get(prev, f.Key())
  {
    FlagKeysDistinct();
    forall i | 0 <= i < |ExportOrder| ensures ExportOrder[i].Key() != f.Key() {
      assert ExportOrder[i] != f;
    }
    WriteFlagsKeeps(prev, ExportOrder, checked, f.Key());
  }

  /** The export checkboxes leave the other settings alone. */
  lemma SaveExportsKeeps(prev: Settings, checked: set<Flag>, key: string)
    requires key in PlainKeys
    ensures Get(SaveExports(prev, checked), key) == Get(prev, key)
  {
    FlagKeysDistinct();
    forall i | 0 <= i < |ExportOrder| ensures ExportOrder[i].Key() != key {
      assert ExportOrder[i].Key() !in PlainKeys;
    }
    WriteFlagsKeeps(prev, ExportOrder, checked, key);
  }

  /** The display checkboxes leave the other settings but `table-classes` alone. */
  lemma SaveDisplayKeeps(prev: Settings, checked: set<Flag>, key: string)
    requires key in PlainKeys && key != TableClassesKey
    ensures Get(SaveDisplay(prev, checked), key) == Get(prev, key)
  {
    FlagKeysDistinct();
    forall i | 0 <= i < |ClassOrder| ensures ClassOrder[i].Key() != key {
      assert ClassOrder[i].Key() !in PlainKeys;
    }
    WriteFlagsKeeps(prev, ClassOrder, checked, key);
  }

  lemma SaveStoresData(prev: Settings, form: Form)
    ensures var s := Save(prev, form);
      && Get(s, WorksheetKey) == Some(form.worksheet)
      && Get(s, MaxRecordsKey) == Some(form.maxRecords)
      && Get(s, UnderlyingKey) == Some(form.underlying)
  {
    SaveKeepsData(prev, form, WorksheetKey);
    SaveKeepsData(prev, form, MaxRecordsKey);
    SaveKeepsData(prev, form, UnderlyingKey);
  }

  /** The writes after the data settings leave those alone. */
  lemma SaveKeepsData(prev: Settings, form: Form, key: string)
    requires key in PlainKeys && key !in {TableClassesKey, RowHeaderKey, ColumnOrderKey, ColumnNamesKey}
    ensures Get(Save(prev, form), key) == Get(SaveData(prev, form), key)
  {
    var data := SaveData(prev, form);
    var display := SaveDisplay(data, form.checked);
    SaveDisplayKeeps(data, form.checked, key);
    SaveExportsKeeps(display, form.checked, key);
  }

  lemma SaveStoresClasses(prev: Settings, form: Form)
    ensures Get(Save(prev, form), TableClassesKey) == Some(TableClasses(form.checked))
  {
    var data := SaveData(prev, form);
    var display := SaveDisplay(data, form.checked);
    var exports := SaveExports(display, form.checked);
    assert Save(prev, form) == SaveColumns(exports, form);
    assert Get(display, TableClassesKey) == Some(TableClasses(form.checked));
    SaveExportsKeeps(display, form.checked, TableClassesKey);
  }

  /** The other settings the save handler writes. */
  lemma SaveStoresFields(prev: Settings, form: Form)
    ensures var s := Save(prev, form);
      && Get(s, WorksheetKey) == Some(form.worksheet)
      && Get(s, MaxRecordsKey) == Some(form.maxRecords)
      && Get(s, UnderlyingKey) == Some(form.underlying)
      && Get(s, RowHeaderKey) == Some(form.rowHeaderCount)
      && Get(s, TableClassesKey) == Some(TableClasses(form.checked))
      && Get(s, ColumnOrderKey) == Some(Join(ColNums(form.columns), Bar))
      && Get(s, ColumnNamesKey) == Some(Join(Labels(form.columns), Bar))
  {
    SaveStoresData(prev, form);
    SaveStoresClasses(prev, form);
  }

  /** Settings the save handler does not write keep their values. */
  lemma SaveKeepsOthers(prev: Settings, form: Form, key: string)
    requires key !in WrittenKeys()
    ensures Get(Save(prev, form), key) == Get(prev, key)
  {
    var data := SaveData(prev, form);
    var display := SaveDisplay(data, form.checked);
    forall i | 0 <= i < |ClassOrder| ensures ClassOrder[i].Key() != key {
      assert ClassOrder[i].Key() in WrittenKeys();
    }
    WriteFlagsKeeps(data, ClassOrder, form.checked, key);
    forall i | 0 <= i < |ExportOrder| ensures ExportOrder[i].Key() != key {
      assert ExportOrder[i].Key() in WrittenKeys();
    }
    WriteFlagsKeeps(display, ExportOrder, form.checked, key);
  }

  // ---------------------------------------------------------------------
  // Reopening

  /** One option of the "number of columns for row header" dropdown. */
  datatype RowHeaderOption = RowHeaderOption(value: nat, selected: bool)

  /** The dropdown options added for a saved list of `n` entries: the counts
      `1..n`, an option being preselected when the stored count equals it. */
  function RowHeaderOptions(n: nat, stored: Option<string>): (r: seq<RowHeaderOption>)
    ensures |r| == n
    ensures forall k :: 0 <= k < n ==> r[k].value == k + 1
    ensures forall k :: 0 <= k < n ==>
      (r[k].selected <==> stored.Some? && ParseNat(stored.value) == Some(k + 1))
    ensures forall k, m :: 0 <= k < n && 0 <= m < n && r[k].selected && r[m].selected ==> k == m
  {
    seq(n, k requires 0 <= k < n =>
      RowHeaderOption(k + 1, stored.Some? && ParseNat(stored.value) == Some(k + 1)))
  }

  /** The checkboxes as the dialog shows them on opening: restored from the
      settings once a worksheet has ever been saved, otherwise as the page
      starts them. */
  function RestoreChecks(s: Settings, pageDefaults: set<Flag>): (checked: set<Flag>)
    ensures WorksheetKey in s ==> forall f: Flag :: f in checked <==> IsYes(Get(s, f.Key()))
    ensures WorksheetKey !in s ==> checked == pageDefaults
  {
    EveryFlagListed();
    if WorksheetKey in s then set f | f in AllFlags && IsYes(Get(s, f.Key()))
    else pageDefaults
  }

  /** The column list rebuilt from the two saved strings: entry `k` gets the
      `k`-th order piece as its number (the text `undefined` when the order
      has fewer pieces) and the `k`-th name as its id, with nothing typed. */
  function Rebuild(names: seq<string>, order: seq<string>): (r: seq<Item>)
    ensures Labels(r) == names
    ensures |names| <= |order| ==> ColNums(r) == order[..|names|]
    ensures forall k :: |order| <= k < |names| ==> ParseNat(r[k].colNum) == None
  {
    seq(|names|, k requires 0 <= k < |names| =>
      Item(if k < |order| then order[k] else "undefined", "", names[k]))
  }

  /** What the reopened dialog shows. `columns` is `None` when no column order
      was saved, in which case the page's own (empty) list stays. */
  datatype Reopened = Reopened(
    checked: set<Flag>,
    columns: Option<seq<Item>>,
    rowHeaderOptions: seq<RowHeaderOption>)

  /** `column_order` was saved but `column_names` was not, so reading the
      names fails. */
  datatype DialogError = ColumnNamesMissing

  /** Opening the dialog on the given settings. */
  function Reopen(s: Settings, pageDefaults: set<Flag>): (r: Result<Reopened, DialogError>)
    ensures r.Err? <==> (exists order :: Get(s, ColumnOrderKey) == Some(order) && |order| > 0) && ColumnNamesKey !in s
    ensures r.Ok? ==> r.value.checked == RestoreChecks(s, pageDefaults)
    ensures r.Ok? ==> (r.value.columns.Some? <==> ColumnOrderKey in s && |s[ColumnOrderKey]| > 0)
    ensures r.Ok? && r.value.columns.Some? ==>
      |r.value.columns.value| == |r.value.rowHeaderOptions| == |Split(s[ColumnNamesKey], Bar)|
    ensures r.Ok? && r.value.columns.Some? ==>
      var names := Split(s[ColumnNamesKey], Bar);
      var order := Split(s[ColumnOrderKey], Bar);
      && r.value.rowHeaderOptions == RowHeaderOptions(|names|, Get(s, RowHeaderKey))
      && forall k :: 0 <= k < |names| ==>
           && r.value.columns.value[k].id == names[k]
           && r.value.columns.value[k].typed == ""
           && r.value.columns.value[k].colNum == (if k < |order| then order[k] else "undefined")
    ensures r.Ok? && r.value.columns.None? ==> r.value.rowHeaderOptions == []
  {
    var checked := RestoreChecks(s, pageDefaults);
    if ColumnOrderKey in s && |s[ColumnOrderKey]| > 0 then
      if ColumnNamesKey !in s then Err(ColumnNamesMissing)
      else
        var names := Split(s[ColumnNamesKey], Bar);
        var order := Split(s[ColumnOrderKey], Bar);
        Ok(Reopened(checked, Some(Rebuild(names, order)), RowHeaderOptions(|names|, Get(s, RowHeaderKey))))
    else
      Ok(Reopened(checked, None, []))
  }

  /** A saved order with fewer pieces than the saved names rebuilds the last
      entries with the text `undefined` as their number, which no render can
      read as a column. */
  lemma ShortOrderRebuildsUnreadable(s: Settings, pageDefaults: set<Flag>)
    requires ColumnOrderKey in s && |s[ColumnOrderKey]| > 0 && ColumnNamesKey in s
    requires |Split(s[ColumnOrderKey], Bar)| < |Split(s[ColumnNamesKey], Bar)|
    ensures var r := Reopen(s, pageDefaults);
      && r.Ok? && r.value.columns.Some?
      && var items := r.value.columns.value;
      && |items| == |Split(s[ColumnNamesKey], Bar)|
      && ParseNat(items[|items| - 1].colNum) == None
  {
  }

  // ---------------------------------------------------------------------
  // Round trips through the settings

  /** Saving and reopening shows every checkbox as it was saved. */
  lemma SaveThenReopenRestoresChecks(prev: Settings, form: Form, pageDefaults: set<Flag>)
    ensures Reopen(Save(prev, form), pageDefaults).Ok?
    ensures Reopen(Save(prev, form), pageDefaults).value.checked == form.checked
  {
    var s := Save(prev, form);
    SaveStoresFlags(prev, form);
    var checked := RestoreChecks(s, pageDefaults);
    forall f: Flag ensures f in checked <==> f in form.checked {
      assert Get(s, f.Key()) == Some(YesNo(f in form.checked));
    }
  }

  /** For a non-empty list whose numbers and names hold no `|`, splitting the
      saved strings gives back the list's numbers and names, in list order. */
  lemma SavedColumnsSplitBack(prev: Settings, form: Form)
    requires |form.columns| >= 1
    requires Clean(ColNums(form.columns), Bar) && Clean(Labels(form.columns), Bar)
    ensures var s := Save(prev, form);
      && ColumnOrderKey in s && ColumnNamesKey in s
      && Split(s[ColumnOrderKey], Bar) == ColNums(form.columns)
      && Split(s[ColumnNamesKey], Bar) == Labels(form.columns)
  {
    SaveStoresFields(prev, form);
    SplitJoin(ColNums(form.columns), Bar);
    SplitJoin(Labels(form.columns), Bar);
  }

  /** The two column strings are built in one loop, so whenever no number or
      name holds a `|` they split into equally many pieces, the empty list
      included (both are then `""`, one empty piece each). */
  lemma SavedColumnCountsAgree(prev: Settings, form: Form)
    requires Clean(ColNums(form.columns), Bar) && Clean(Labels(form.columns), Bar)
    ensures var s := Save(prev, form);
      && ColumnOrderKey in s && ColumnNamesKey in s
      && |Split(s[ColumnOrderKey], Bar)| == |Split(s[ColumnNamesKey], Bar)|
  {
    SaveStoresFields(prev, form);
    SplitCountsAgree(ColNums(form.columns), Labels(form.columns), Bar);
  }

  /** Saving a freshly loaded list of `n >= 1` columns without dragging
      stores the order `1|2|...|n`, whatever the field names hold. */
  lemma FreshListSavesNaturalOrder(prev: Settings, form: Form, fields: seq<string>)
    requires |fields| >= 1
    requires form.columns == FreshList(fields)
    ensures var s := Save(prev, form);
      && ColumnOrderKey in s
      && |Split(s[ColumnOrderKey], Bar)| == |fields|
      && Split(s[ColumnOrderKey], Bar) == seq(|fields|, k requires 0 <= k < |fields| => Show(k + 1))
      && forall k :: 0 <= k < |fields| ==> ParseNat(Split(s[ColumnOrderKey], Bar)[k]) == Some(k + 1)
  {
    var nums := ColNums(form.columns);
    assert Clean(nums, Bar) by {
      forall k | 0 <= k < |nums| ensures Bar !in nums[k] {
        assert nums[k] == form.columns[k].colNum;
      }
    }
    assert nums == seq(|fields|, k requires 0 <= k < |fields| => Show(k + 1));
    SaveStoresFields(prev, form);
    SplitJoin(nums, Bar);
  }

  /** Saving a freshly loaded list without typing any title stores the field
      names, provided none of them holds a `|`. */
  lemma FreshListSavesFieldNames(prev: Settings, form: Form, fields: seq<string>)
    requires |fields| >= 1 && Clean(fields, Bar)
    requires form.columns == FreshList(fields)
    ensures var s := Save(prev, form);
      && ColumnNamesKey in s
      && Split(s[ColumnNamesKey], Bar) == fields
  {
    assert Labels(form.columns) == fields;
    SaveStoresFields(prev, form);
    SplitJoin(fields, Bar);
  }

  /** The order string of a non-empty list is non-empty: two or more entries
      put a `|` in it, and a single entry has a non-empty number. */
  lemma OrderStringNonEmpty(items: seq<Item>)
    requires |items| >= 1
    requires |items| == 1 ==> |items[0].colNum| > 0
    ensures |Join(ColNums(items), Bar)| > 0
  {
    var nums := ColNums(items);
    if |nums| == 1 {
      assert nums[0] == items[0].colNum;
    }
  }

  /** Rebuilding a list from its own numbers and titles gives back those
      numbers and titles. */
  lemma RebuildKeepsColumns(items: seq<Item>)
    ensures var rebuilt := Rebuild(Labels(items), ColNums(items));
      && ColNums(rebuilt) == ColNums(items)
      && Labels(rebuilt) == Labels(items)
  {
    var rebuilt := Rebuild(Labels(items), ColNums(items));
    assert ColNums(rebuilt) == ColNums(items);
    assert Labels(rebuilt) == Labels(items);
  }

  /** Saving an empty column list stores empty strings, and the dialog then
      reopens as if no column order had ever been saved. */
  lemma EmptySaveReopensNothing(prev: Settings, form: Form, pageDefaults: set<Flag>)
    requires form.columns == []
    ensures var s := Save(prev, form);
      && Get(s, ColumnOrderKey) == Some("") && Get(s, ColumnNamesKey) == Some("")
      && var r := Reopen(s, pageDefaults);
      && r.Ok? && r.value.columns == None && r.value.rowHeaderOptions == []
  {
    SaveStoresFields(prev, form);
  }

  /** Reopening after a save rebuilds the saved list: same length, same
      numbers, each entry now carrying its saved name as id with nothing
      typed, and a row-header dropdown offering `1..n`. */
  lemma ReopenRebuildsSavedList(prev: Settings, form: Form, pageDefaults: set<Flag>)
    requires |form.columns| >= 1
    requires Clean(ColNums(form.columns), Bar) && Clean(Labels(form.columns), Bar)
    requires |form.columns| == 1 ==> |form.columns[0].colNum| > 0
    ensures var r := Reopen(Save(prev, form), pageDefaults);
      && r.Ok? && r.value.columns.Some?
      && ColNums(r.value.columns.value) == ColNums(form.columns)
      && Labels(r.value.columns.value) == Labels(form.columns)
      && |r.value.rowHeaderOptions| == |form.columns|
      && forall k :: 0 <= k < |form.columns| ==> r.value.rowHeaderOptions[k].value == k + 1
  {
    var s := Save(prev, form);
    SavedColumnsSplitBack(prev, form);
    OrderStringNonEmpty(form.columns);
    RebuildKeepsColumns(form.columns);
  }

  /** Saving, reopening and saving again without touching anything writes the
      same two column strings. */
  lemma SaveReopenSaveIsStable(prev: Settings, form: Form, pageDefaults: set<Flag>, prev2: Settings)
    requires |form.columns| >= 1
    requires Clean(ColNums(form.columns), Bar) && Clean(Labels(form.columns), Bar)
    requires |form.columns| == 1 ==> |form.columns[0].colNum| > 0
    ensures var r := Reopen(Save(prev, form), pageDefaults);
      && r.Ok? && r.value.columns.Some?
      && var s2 := Save(prev2, form.(columns := r.value.columns.value));
      && Get(s2, ColumnOrderKey) == Get(Save(prev, form), ColumnOrderKey)
      && Get(s2, ColumnNamesKey) == Get(Save(prev, form), ColumnNamesKey)
  {
    ReopenRebuildsSavedList(prev, form, pageDefaults);
    var r := Reopen(Save(prev, form), pageDefaults);
    SaveStoresFields(prev, form);
    SaveStoresFields(prev2, form.(columns := r.value.columns.value));
  }
}

=== FILE: mainview.dfy ===
/** The main view: what a render does with the settings and the rows the host
    returns, up to the options handed to the table widget. */
module MainView {
  import opened Wrappers
  import opened Delimited
  import opened Decimal
  import opened Permutations
  import opened SettingsStore

  /** Data returned by the host for a worksheet: the field names of its
      columns and, per row, the formatted value of each cell. */
  datatype Table = Table(columns: seq<string>, rows: seq<seq<string>>)

  /** The host returns one cell per column in every row. */
  predicate WellFormed(t: Table)
  {
    forall i :: 0 <= i < |t.rows| ==> |t.rows[i]| == |t.columns|
  }

  datatype RenderError =
    | NoWorksheet            // nothing configured yet: the "configure" prompt is shown
    | UnknownWorksheet       // the saved worksheet is not on the dashboard
    | MissingColumnSettings  // a column setting was never saved
    | StaleColumnOrder       // the saved columns do not fit the worksheet's columns

  /** The data request a render sends to the host. */
  datatype Request = Request(worksheet: string, underlying: bool, maxRows: Option<string>)

  /** The start of a render: without a worksheet name the render stops before
      any data is requested; otherwise it asks for the saved worksheet's
      underlying rows when `underlying` is `"1"` and its summary rows
      otherwise, with the saved row limit. */
  function Plan(s: Settings, worksheets: seq<string>): (r: Result<Request, RenderError>)
    ensures r == Err(NoWorksheet) <==> Get(s, WorksheetKey) == None || Get(s, WorksheetKey) == Some("")
    ensures r == Err(UnknownWorksheet) <==>
      WorksheetKey in s && s[WorksheetKey] != "" && s[WorksheetKey] !in worksheets
    ensures r.Err? ==> r.error in {NoWorksheet, UnknownWorksheet}
    ensures r.Ok? ==> Get(s, WorksheetKey) == Some(r.value.worksheet) && r.value.worksheet in worksheets
    ensures r.Ok? ==> (r.value.underlying <==> Get(s, UnderlyingKey) == Some("1"))
    ensures r.Ok? ==> r.value.maxRows == Get(s, MaxRecordsKey)
  {
    var sheet := Get(s, WorksheetKey);
    if sheet == None || sheet == Some("") then Err(NoWorksheet)
    else if sheet.value !in worksheets then Err(UnknownWorksheet)
    else Ok(Request(sheet.value, Get(s, UnderlyingKey) == Some("1"), Get(s, MaxRecordsKey)))
  }

  // ---------------------------------------------------------------------
  // The reorder loop as written

  /** `makeArray(d1, d2)`: `d2` rows of `d1` empty cells. */
  function MakeArray(d1: nat, d2: nat): (arr: seq<seq<Option<string>>>)
    ensures |arr| == d2
    ensures forall i :: 0 <= i < d2 ==> |arr[i]| == d1 && forall j :: 0 <= j < d1 ==> arr[i][j] == None
  {
    seq(d2, _ => seq(d1, _ => None))
  }

  /** The source column (one-based) that display position `j` reads: the
      `j`-th order piece as a number, if there is such a piece and it is one. */
  function Entry(order: seq<string>, j: nat): Option<nat>
  {
    if j < |order| then ParseNat(order[j]) else None
  }

  /** Display position `j` reads an existing source column. */
  predicate EntryFits(order: seq<string>, j: nat, n: nat)
  {
    Entry(order, j).Some? && 1 <= Entry(order, j).value <= n
  }

  /** Every one of the `n` display positions reads an existing source column. */
  predicate PrefixFits(order: seq<string>, n: nat)
  {
    forall j :: 0 <= j < n ==> EntryFits(order, j, n)
  }

  /** The source column display position `j` reads, when it fits. */
  function Column(order: seq<string>, j: nat, n: nat): (k: nat)
    requires EntryFits(order, j, n)
    ensures 1 <= k <= n
  {
    Entry(order, j).value
  }

  /** The columns the display positions read, for a fitting order. */
  function Selection(order: seq<string>, n: nat): (sel: seq<nat>)
    requires PrefixFits(order, n)
    ensures |sel| == n && InRange(sel, n)
  {
    seq(n, j requires 0 <= j < n => Column(order, j, n))
  }

  /** The grid the render builds, as written: as many rows as the host sent,
      as many cells per row as the worksheet has columns, cell `(i, j)` being
      source cell `(i, column_order[j] - 1)`. Only the first `n` pieces of
      the order are ever read, and nothing is read when there are no rows; a
      piece that is missing, not a number or out of range stops the render. */
  function ApplyColumnOrder(order: seq<string>, t: Table): (r: Result<seq<seq<string>>, RenderError>)
    requires WellFormed(t)
    ensures r.Err? <==> |t.rows| > 0 && !PrefixFits(order, |t.columns|)
    ensures r.Ok? ==> |r.value| == |t.rows|
    ensures r.Ok? ==> forall i, j :: 0 <= i < |t.rows| && 0 <= j < |t.columns| ==>
      && |r.value[i]| == |t.columns|
      && EntryFits(order, j, |t.columns|)
      && r.value[i][j] == t.rows[i][Entry(order, j).value - 1]
  {
    var n := |t.columns|;
    if |t.rows| == 0 then Ok([])
    else if !PrefixFits(order, n) then Err(StaleColumnOrder)
    else Ok(seq(|t.rows|, i requires 0 <= i < |t.rows| => Pick(t.rows[i], Selection(order, n))))
  }

  /** The nested loop of the render that fills the grid cell by cell. */
  method FillTableData(order: seq<string>, t: Table) returns (r: Result<seq<seq<string>>, RenderError>)
    requires WellFormed(t)
    ensures r.Err? <==> |t.rows| > 0 && !PrefixFits(order, |t.columns|)
    ensures r.Err? ==> r.error == StaleColumnOrder
    ensures r.Ok? ==>
      && |r.value| == |MakeArray(|t.columns|, |t.rows|)|
      && forall i :: 0 <= i < |r.value| ==> |r.value[i]| == |MakeArray(|t.columns|, |t.rows|)[i]|
    ensures r.Ok? ==> forall i, j :: 0 <= i < |r.value| && 0 <= j < |t.columns| ==>
      EntryFits(order, j, |t.columns|) && r.value[i][j] == t.rows[i][Entry(order, j).value - 1]
    ensures r == ApplyColumnOrder(order, t)
  {
    var n := |t.columns|;
    var tableData := MakeArray(n, |t.rows|);
    var grid: seq<seq<string>> := [];
    var i := 0;
    while i < |tableData|
      invariant 0 <= i <= |tableData| == |t.rows|
      invariant |grid| == i
      invariant i > 0 ==> PrefixFits(order, n)
      invariant forall i' :: 0 <= i' < i ==> |grid[i']| == n
      invariant forall i', j :: 0 <= i' < i && 0 <= j < n ==>
        EntryFits(order, j, n) && grid[i'][j] == t.rows[i'][Entry(order, j).value - 1]
    {
      var row: seq<string> := [];
      var j := 0;
      while j < |tableData[i]|
        invariant 0 <= j <= |tableData[i]| == n
        invariant |row| == j
        invariant forall j' :: 0 <= j' < j ==>
          EntryFits(order, j', n) && row[j'] == t.rows[i][Entry(order, j').value - 1]
      {
        var k := Entry(order, j);
        if k.None? || k.value < 1 || k.value > |t.rows[i]| {
          assert !EntryFits(order, j, n);
          return Err(StaleColumnOrder);
        }
        row := row + [t.rows[i][k.value - 1]];
        j := j + 1;
      }
      assert PrefixFits(order, n);
      grid := grid + [row];
      i := i + 1;
    }
    if |t.rows| > 0 {
      var sel := Selection(order, n);
      forall i | 0 <= i < |t.rows| ensures grid[i] == Pick(t.rows[i], sel) {
      }
      assert grid == seq(|t.rows|, i requires 0 <= i < |t.rows| => Pick(t.rows[i], sel));
    }
    return Ok(grid);
  }

  // ---------------------------------------------------------------------
  // The columns as the render should read them

  /** Every piece read as a column number, or `None` if one is not a number. */
  function ParseAll(pieces: seq<string>): (r: Option<seq<nat>>)
    ensures r.Some? <==> forall k :: 0 <= k < |pieces| ==> ParseNat(pieces[k]).Some?
    ensures r.Some? ==> |r.value| == |pieces| && forall k :: 0 <= k < |pieces| ==> ParseNat(pieces[k]) == Some(r.value[k])
  {
    if |pieces| == 0 then Some([])
    else
      var rest := ParseAll(pieces[1..]);
      match ParseNat(pieces[0])
      case None => None
      case Some(v) =>
        if rest.None? then None else Some([v] + rest.value)
  }

  /** Header titles and rows ready for the table widget. */
  datatype Columns = Columns(titles: seq<string>, grid: seq<seq<string>>)

  /** The saved columns fit a worksheet of `n` columns: one name per column,
      and an order that lists each of `1..n` exactly once. */
  predicate ColumnsFit(names: seq<string>, order: seq<string>, n: nat)
  {
    && |names| == n
    && ParseAll(order).Some?
    && IsPermutation(ParseAll(order).value, n)
  }

  /** Headers and rows for the widget, refusing saved columns that do not fit
      the worksheet as it is now instead of reading past them: titles are the
      `|`-pieces of `column_names`, and display cell `(i, j)` is source cell
      `(i, column_order[j] - 1)`. */
  function DecodeColumns(s: Settings, t: Table): (r: Result<Columns, RenderError>)
    requires WellFormed(t)
    ensures r == Err(MissingColumnSettings) <==> ColumnNamesKey !in s || ColumnOrderKey !in s
    ensures r.Err? ==> r.error in {MissingColumnSettings, StaleColumnOrder}
    ensures r == Err(StaleColumnOrder) <==>
      && ColumnNamesKey in s && ColumnOrderKey in s
      && !ColumnsFit(Split(s[ColumnNamesKey], Bar), Split(s[ColumnOrderKey], Bar), |t.columns|)
    ensures r.Ok? ==>
      var order := ParseAll(Split(s[ColumnOrderKey], Bar)).value;
      && r.value.titles == Split(s[ColumnNamesKey], Bar)
      && |r.value.titles| == |order| == |t.columns|
      && InRange(order, |t.columns|)
      && |r.value.grid| == |t.rows|
      && (forall i :: 0 <= i < |t.rows| ==> |r.value.grid[i]| == |t.columns|)
      && forall i, j :: 0 <= i < |t.rows| && 0 <= j < |t.columns| ==>
           r.value.grid[i][j] == t.rows[i][order[j] - 1]
  {
    if ColumnNamesKey !in s || ColumnOrderKey !in s then Err(MissingColumnSettings)
    else
      var names := Split(s[ColumnNamesKey], Bar);
      var pieces := Split(s[ColumnOrderKey], Bar);
      if !ColumnsFit(names, pieces, |t.columns|) then Err(StaleColumnOrder)
      else
        var order := ParseAll(pieces).value;
        PermutationInRange(order, |t.columns|);
        Ok(Columns(names, seq(|t.rows|, i requires 0 <= i < |t.rows| => Pick(t.rows[i], order))))
  }

  /** Each decoded row is its source row picked through the saved order. */
  lemma DecodedRowsArePicks(s: Settings, t: Table)
    requires WellFormed(t)
    requires DecodeColumns(s, t).Ok?
    ensures ParseAll(Split(s[ColumnOrderKey], Bar)).Some?
    ensures |DecodeColumns(s, t).value.grid| == |t.rows|
    ensures forall i :: 0 <= i < |t.rows| ==>
      DecodeColumns(s, t).value.grid[i] == Pick(t.rows[i], ParseAll(Split(s[ColumnOrderKey], Bar)).value)
  {
  }

  /** Decoded rows lose and duplicate nothing: each displayed row holds
      exactly the cells of its source row, each as often as there. */
  lemma DecodedRowsArePermutations(s: Settings, t: Table)
    requires WellFormed(t)
    requires DecodeColumns(s, t).Ok?
    ensures forall i :: 0 <= i < |t.rows| ==>
      multiset(DecodeColumns(s, t).value.grid[i]) == multiset(t.rows[i])
  {
    var order := ParseAll(Split(s[ColumnOrderKey], Bar)).value;
    var grid := DecodeColumns(s, t).value.grid;
    forall i | 0 <= i < |t.rows|
      ensures multiset(grid[i]) == multiset(t.rows[i])
    {
      PickPermutation(t.rows[i], order);
      assert grid[i] == Pick(t.rows[i], order);
    }
  }

  /** Where the saved columns fit, the checked decoding and the render as
      written agree cell for cell. */
  lemma DecodeAgreesWithAsWritten(s: Settings, t: Table)
    requires WellFormed(t)
    requires DecodeColumns(s, t).Ok?
    ensures ApplyColumnOrder(Split(s[ColumnOrderKey], Bar), t) == Ok(DecodeColumns(s, t).value.grid)
  {
    var pieces := Split(s[ColumnOrderKey], Bar);
    var order := ParseAll(pieces).value;
    var n := |t.columns|;
    PermutationInRange(order, n);
    assert PrefixFits(pieces, n) by {
      forall j | 0 <= j < n ensures EntryFits(pieces, j, n) {
        assert ParseNat(pieces[j]) == Some(order[j]);
      }
    }
    assert Selection(pieces, n) == order;
  }

  /** Headers and rows as the render builds them without any check: the
      titles are every `|`-piece of `column_names`, whatever their count, and
      the grid is the reorder loop's. Reading a column setting that was never
      saved fails. */
  function ColumnsAsWritten(s: Settings, t: Table): (r: Result<Columns, RenderError>)
    requires WellFormed(t)
    ensures r == Err(MissingColumnSettings) <==> ColumnNamesKey !in s || ColumnOrderKey !in s
    ensures r == Err(StaleColumnOrder) <==>
      && ColumnNamesKey in s && ColumnOrderKey in s
      && |t.rows| > 0 && !PrefixFits(Split(s[ColumnOrderKey], Bar), |t.columns|)
    ensures r.Err? ==> r.error in {MissingColumnSettings, StaleColumnOrder}
    ensures r.Ok? ==>
      && r.value.titles == Split(s[ColumnNamesKey], Bar)
      && |r.value.grid| == |t.rows|
      && forall i :: 0 <= i < |t.rows| ==> |r.value.grid[i]| == |t.columns|
    ensures r.Ok? ==> forall i, j :: 0 <= i < |t.rows| && 0 <= j < |t.columns| ==>
      var order := Split(s[ColumnOrderKey], Bar);
      EntryFits(order, j, |t.columns|) && r.value.grid[i][j] == t.rows[i][Entry(order, j).value - 1]
  {
    if ColumnNamesKey !in s || ColumnOrderKey !in s then Err(MissingColumnSettings)
    else
      match ApplyColumnOrder(Split(s[ColumnOrderKey], Bar), t)
      case Err(e) => Err(e)
      case Ok(grid) => Ok(Columns(Split(s[ColumnNamesKey], Bar), grid))
  }

  /** Wherever the checked decoding succeeds, the unchecked one gives the
      same headers and rows. */
  lemma DecodeRefinesAsWritten(s: Settings, t: Table)
    requires WellFormed(t)
    requires DecodeColumns(s, t).Ok?
    ensures ColumnsAsWritten(s, t) == DecodeColumns(s, t)
  {
    DecodeAgreesWithAsWritten(s, t);
  }

  /** The saved strings of three columns reordered to B, A, C. */
  lemma StaleSplits(order: string, names: string)
    requires order == "2|1|3" && names == "b|a|c"
    ensures Split(order, Bar) == ["2", "1", "3"]
    ensures Split(names, Bar) == ["b", "a", "c"]
  {
    var pieces, labels := ["2", "1", "3"], ["b", "a", "c"];
    assert pieces[1..] == ["1", "3"] && labels[1..] == ["a", "c"];
    assert Join(["1", "3"], Bar) == "1|3" && Join(["a", "c"], Bar) == "a|c";
    assert Join(pieces, Bar) == order && Join(labels, Bar) == names;
    assert forall k :: 0 <= k < 3 ==> |pieces[k]| == 1 && pieces[k][0] != Bar;
    assert forall k :: 0 <= k < 3 ==> |labels[k]| == 1 && labels[k][0] != Bar;
    SplitJoin(pieces, Bar);
    SplitJoin(labels, Bar);
  }

  /** Columns A, B, C were saved as `2|1|3` / `b|a|c`; the worksheet has
      since lost column C. The unchecked render reads only the first two
      pieces, so it shows three titles over two-cell rows; the checked
      decoding refuses the stale order. */
  lemma StaleOrderShowsExtraTitle(s: Settings, t: Table)
    requires Get(s, ColumnOrderKey) == Some("2|1|3") && Get(s, ColumnNamesKey) == Some("b|a|c")
    requires t.columns == ["A", "B"] && t.rows == [["a1", "b1"]]
    ensures WellFormed(t)
    ensures ColumnsAsWritten(s, t) == Ok(Columns(["b", "a", "c"], [["b1", "a1"]]))
    ensures DecodeColumns(s, t) == Err(StaleColumnOrder)
  {
    StaleSplits(s[ColumnOrderKey], s[ColumnNamesKey]);
    StaleAsWritten(s, t);
    StaleRefused(s, t);
  }

  lemma StaleAsWritten(s: Settings, t: Table)
    requires ColumnOrderKey in s && ColumnNamesKey in s
    requires Split(s[ColumnOrderKey], Bar) == ["2", "1", "3"]
    requires Split(s[ColumnNamesKey], Bar) == ["b", "a", "c"]
    requires |t.columns| == 2 && t.rows == [["a1", "b1"]]
    ensures WellFormed(t)
    ensures ColumnsAsWritten(s, t) == Ok(Columns(["b", "a", "c"], [["b1", "a1"]]))
  {
    assert WellFormed(t);
    var pieces := Split(s[ColumnOrderKey], Bar);
    assert ParseNat("2") == Some(2) by { ParseShow(2); }
    assert ParseNat("1") == Some(1) by { ParseShow(1); }
    assert EntryFits(pieces, 0, 2) && EntryFits(pieces, 1, 2);
    assert PrefixFits(pieces, 2);
    var sel := Selection(pieces, 2);
    assert sel[0] == 2 && sel[1] == 1;
    var grid := ApplyColumnOrder(pieces, t).value;
    assert grid[0] == Pick(t.rows[0], sel);
    StaleGrid(grid, t.rows, sel);
  }

  lemma StaleRefused(s: Settings, t: Table)
    requires ColumnOrderKey in s && ColumnNamesKey in s
    requires Split(s[ColumnNamesKey], Bar) == ["b", "a", "c"]
    requires |t.columns| == 2 && WellFormed(t)
    ensures DecodeColumns(s, t) == Err(StaleColumnOrder)
  {
    assert !ColumnsFit(Split(s[ColumnNamesKey], Bar), Split(s[ColumnOrderKey], Bar), 2);
  }

  lemma StaleGrid(grid: seq<seq<string>>, rows: seq<seq<string>>, sel: seq<nat>)
    requires rows == [["a1", "b1"]] && |sel| == 2 && sel[0] == 2 && sel[1] == 1
    requires |grid| == 1 && InRange(sel, |rows[0]|) && grid[0] == Pick(rows[0], sel)
    ensures grid == [["b1", "a1"]]
  {
    assert Pick(rows[0], sel) == ["b1", "a1"];
  }

  // ---------------------------------------------------------------------
  // Export buttons and widget options

  /** The export buttons, in the order the render offers them. */
  datatype Export = Copy | Csv | Excel | Pdf | Print
  {
    /** The button name the table widget knows. */
    function Name(): string
    {
      match this
      case Copy => "copy"
      case Csv => "csv"
      case Excel => "excel"
      case Pdf => "pdf"
      case Print => "print"
    }

    /** The checkbox that turns the button on. */
    function Setting(): Flag
    {
      match this
      case Copy => ExportClipboard
      case Csv => ExportCsv
      case Excel => ExportExcel
      case Pdf => ExportPdf
      case Print => ExportPrint
    }

    /** Position in the fixed order copy, csv, excel, pdf, print. */
    function Rank(): nat
    {
      match this
      case Copy => 0
      case Csv => 1
      case Excel => 2
      case Pdf => 3
      case Print => 4
    }
  }

  /** Whether the stored setting of a button reads as on. */
  predicate ButtonOn(s: Settings, e: Export)
  {
    IsYes(Get(s, e.Setting().Key()))
  }

  /** The buttons in the order the render checks them. */
  const ButtonOrder: seq<Export> := [Copy, Csv, Excel, Pdf, Print]

  lemma ButtonOrderComplete()
    ensures forall e: Export :: e in ButtonOrder
  {
    forall e: Export ensures e in ButtonOrder {
      match e
      case Copy => case Csv => case Excel => case Pdf => case Print =>
    }
  }

  /** The buttons of `es` whose setting is on, in the order of `es`. */
  function EnabledButtons(es: seq<Export>, s: Settings): seq<Export>
  {
    if |es| == 0 then []
    else (if ButtonOn(s, es[0]) then [es[0]] else []) + EnabledButtons(es[1..], s)
  }

  predicate RankAscending(es: seq<Export>)
  {
    forall i, j :: 0 <= i < j < |es| ==> es[i].Rank() < es[j].Rank()
  }

  lemma {:induction false} EnabledButtonsSpec(es: seq<Export>, s: Settings)
    ensures forall e :: e in EnabledButtons(es, s) <==> e in es && ButtonOn(s, e)
    ensures RankAscending(es) ==> RankAscending(EnabledButtons(es, s))
    decreases |es|
  {
    if |es| > 0 {
      EnabledButtonsSpec(es[1..], s);
      var rest := EnabledButtons(es[1..], s);
      assert forall e :: e in es <==> e == es[0] || e in es[1..];
      if RankAscending(es) {
        assert RankAscending(es[1..]);
        forall k | 0 <= k < |rest|
          ensures es[0].Rank() < rest[k].Rank()
        {
          assert rest[k] in es[1..];
          var m :| 0 <= m < |es[1..]| && es[1..][m] == rest[k];
          assert es[m + 1] == rest[k];
        }
      }
    }
  }

  /** The buttons list: each button present exactly when its setting is
      `"Y"`, in the fixed order copy, csv, excel, pdf, print, none twice. */
  function Buttons(s: Settings): (r: seq<Export>)
    ensures forall e :: e in r <==> ButtonOn(s, e)
    ensures RankAscending(r)
  {
    EnabledButtonsSpec(ButtonOrder, s);
    ButtonOrderComplete();
    EnabledButtons(ButtonOrder, s)
  }

  /** The options the table widget is built with, besides data and columns. */
  datatype WidgetOptions = WidgetOptions(
    dom: Option<string>,
    buttons: seq<string>,
    rowGroup: bool,
    classes: string)

  /** The widget options: the `Bfrtip` layout and the buttons only when at
      least one export is on; row grouping only for summary data with
      buttons; the classes exactly as saved (none when unset). */
  function Options(s: Settings, underlying: bool): (o: WidgetOptions)
    ensures o.dom.Some? <==> |Buttons(s)| > 0
    ensures o.dom.Some? ==> o.dom.value == "Bfrtip"
    ensures |o.buttons| == |Buttons(s)|
    ensures forall k :: 0 <= k < |o.buttons| ==> o.buttons[k] == Buttons(s)[k].Name()
    ensures o.rowGroup <==> !underlying && |Buttons(s)| > 0
    ensures TableClassesKey in s ==> o.classes == s[TableClassesKey]
    ensures TableClassesKey !in s ==> o.classes == ""
  {
    var bs := Buttons(s);
    var names := seq(|bs|, k requires 0 <= k < |bs| => bs[k].Name());
    var classes := if TableClassesKey in s then s[TableClassesKey] else "";
    if |bs| > 0 then WidgetOptions(Some("Bfrtip"), names, !underlying, classes)
    else WidgetOptions(None, [], false, classes)
  }

  /** Everything a finished render hands to the table widget. */
  datatype View = View(columns: Columns, options: WidgetOptions)

  /** A render once the host has answered `request` with `t`. */
  function Render(s: Settings, request: Request, t: Table): (r: Result<View, RenderError>)
    requires WellFormed(t)
    ensures r.Ok? <==> DecodeColumns(s, t).Ok?
    ensures r.Err? ==> r.error == DecodeColumns(s, t).error
    ensures r.Ok? ==> r.value.columns == DecodeColumns(s, t).value
    ensures r.Ok? ==> r.value.options == Options(s, request.underlying)
  {
    match DecodeColumns(s, t)
    case Err(e) => Err(e)
    case Ok(columns) => Ok(View(columns, Options(s, request.underlying)))
  }
}

=== FILE: permutations.dfy ===
/** One-based column selections. A `column_order` entry `k` means "show source
    column k here", so the natural order of n columns is `[1, 2, ..., n]` and a
    valid saved order is a rearrangement of it. */
module Permutations {

  /** The natural order `[1, 2, ..., n]`. */
  function Iota(n: nat): (r: seq<nat>)
    ensures |r| == n
    ensures forall k :: 0 <= k < n ==> r[k] == k + 1
  {
    if n == 0 then [] else Iota(n - 1) + [n]
  }

  /** `order` lists each of `1..n` exactly once, in some order. */
  predicate IsPermutation(order: seq<nat>, n: nat)
  {
    multiset(order) == multiset(Iota(n))
  }

  /** Every entry names one of the `n` source columns. */
  predicate InRange(order: seq<nat>, n: nat)
  {
    forall j :: 0 <= j < |order| ==> 1 <= order[j] <= n
  }

  /** Position `j` of the result is element `order[j]` (one-based) of `s`. */
  function Pick<T>(s: seq<T>, order: seq<nat>): (r: seq<T>)
    requires InRange(order, |s|)
    ensures |r| == |order|
  {
    seq(|order|, j requires 0 <= j < |order| => s[order[j] - 1])
  }

  lemma InIota(x: nat, n: nat)
    ensures x in multiset(Iota(n)) <==> 1 <= x <= n
  {
    if 1 <= x <= n {
      assert Iota(n)[x - 1] == x;
    }
  }

  /** A permutation of `1..n` has n entries, each naming a column in `1..n`. */
  lemma PermutationInRange(order: seq<nat>, n: nat)
    requires IsPermutation(order, n)
    ensures |order| == n && InRange(order, n)
  {
    assert |order| == |multiset(order)| == |multiset(Iota(n))| == n;
    forall j | 0 <= j < |order|
      ensures 1 <= order[j] <= n
    {
      assert order[j] in multiset(order);
      InIota(order[j], n);
    }
  }

  /** Taking the largest column `n` out of a permutation of `1..n` leaves a
      permutation of `1..n-1`. */
  lemma DropLargest(order: seq<nat>, n: nat, j: nat)
    requires IsPermutation(order, n) && n > 0
    requires j < |order| && order[j] == n
    ensures IsPermutation(order[..j] + order[j + 1..], n - 1)
  {
    var before, after := order[..j], order[j + 1..];
    assert order == before + [n] + after;
    assert Iota(n) == Iota(n - 1) + [n];
    var single: multiset<nat> := multiset{n};
    assert multiset(order) == multiset(before + after) + single;
    assert multiset(Iota(n)) == multiset(Iota(n - 1)) + single;
    assert multiset(before + after) == multiset(order) - single;
  }

  /** Where the largest column `n` sits in a permutation of `1..n`. */
  lemma FindLargest(order: seq<nat>, n: nat) returns (j: nat)
    requires IsPermutation(order, n) && n > 0
    ensures j < |order| && order[j] == n
  {
    InIota(n, n);
    assert n in multiset(order);
    j :| 0 <= j < |order| && order[j] == n;
  }

  /** Both sides of a split list are in range when the whole is. */
  lemma SplitInRange(before: seq<nat>, after: seq<nat>, n: nat)
    requires InRange(before + after, n)
    ensures InRange(before, n) && InRange(after, n)
  {
    var whole := before + after;
    forall k | 0 <= k < |before| ensures 1 <= before[k] <= n {
      assert before[k] == whole[k];
    }
    forall k | 0 <= k < |after| ensures 1 <= after[k] <= n {
      assert after[k] == whole[|before| + k];
    }
  }

  /** Selecting by a list that skips the last element of `s` reads only the
      shorter prefix. */
  lemma PickPrefix<T>(s: seq<T>, part: seq<nat>)
    requires |s| > 0 && InRange(part, |s| - 1)
    ensures InRange(part, |s|)
    ensures Pick(s, part) == Pick(s[..|s| - 1], part)
  {
  }

  /** Selection distributes over concatenation of the selecting lists. */
  lemma PickAppend<T>(s: seq<T>, xs: seq<nat>, ys: seq<nat>)
    requires InRange(xs, |s|) && InRange(ys, |s|)
    ensures InRange(xs + ys, |s|)
    ensures Pick(s, xs + ys) == Pick(s, xs) + Pick(s, ys)
  {
  }

  /** Selection at one position splits the result around that position. */
  lemma PickAround<T>(s: seq<T>, order: seq<nat>, j: nat)
    requires InRange(order, |s|) && j < |order|
    ensures InRange(order[..j], |s|) && InRange(order[j + 1..], |s|)
    ensures Pick(s, order) == Pick(s, order[..j]) + [s[order[j] - 1]] + Pick(s, order[j + 1..])
  {
    assert order == order[..j] + [order[j]] + order[j + 1..];
  }

  /** Selecting through a list whose entry `j` is the last column `n`, and
      whose other entries avoid it, is the selection of the other entries from
      the shorter prefix with the last element put back at position `j`. */
  lemma PickWithoutLast<T>(s: seq<T>, order: seq<nat>, j: nat)
    requires |s| > 0 && j < |order| && order[j] == |s|
    requires InRange(order[..j] + order[j + 1..], |s| - 1)
    ensures InRange(order, |s|)
    ensures var shorter := s[..|s| - 1];
      && InRange(order[..j], |shorter|) && InRange(order[j + 1..], |shorter|)
      && Pick(s, order) == Pick(shorter, order[..j]) + [s[|s| - 1]] + Pick(shorter, order[j + 1..])
      && Pick(shorter, order[..j] + order[j + 1..]) == Pick(shorter, order[..j]) + Pick(shorter, order[j + 1..])
  {
    var before, after := order[..j], order[j + 1..];
    SplitInRange(before, after, |s| - 1);
    PickPrefix(s, before);
    PickPrefix(s, after);
    assert order == before + [order[j]] + after;
    forall k | 0 <= k < |order| ensures 1 <= order[k] <= |s| {
      if k < j {
        assert order[k] == before[k];
      } else if k > j {
        assert order[k] == after[k - j - 1];
      }
    }
    PickAround(s, order, j);
    PickAppend(s[..|s| - 1], before, after);
  }

  /** Putting one element back between two parts keeps the count of each
      element in step with appending it. */
  lemma MultisetInsert<T>(front: seq<T>, x: T, back: seq<T>, whole: seq<T>)
    requires multiset(front + back) == multiset(whole)
    ensures multiset(front + [x] + back) == multiset(whole + [x])
  {
    assert multiset(front + [x] + back) == multiset(front) + multiset{x} + multiset(back);
    assert multiset(front + back) == multiset(front) + multiset(back);
  }

  /** The inductive step: if selecting the other entries from the shorter
      prefix keeps its elements, selecting all of them from `s` keeps the
      elements of `s`. */
  lemma PickKeepsElementsStep<T>(s: seq<T>, order: seq<nat>, j: nat)
    requires |s| > 0 && j < |order| && order[j] == |s|
    requires InRange(order[..j] + order[j + 1..], |s| - 1)
    requires multiset(Pick(s[..|s| - 1], order[..j] + order[j + 1..])) == multiset(s[..|s| - 1])
    ensures InRange(order, |s|)
    ensures multiset(Pick(s, order)) == multiset(s)
  {
    var shorter, x := s[..|s| - 1], s[|s| - 1];
    PickWithoutLast(s, order, j);
    var front, back := Pick(shorter, order[..j]), Pick(shorter, order[j + 1..]);
    MultisetInsert(front, x, back, shorter);
    assert s == shorter + [x];
  }

  /** Selecting by a permutation neither loses nor duplicates an element: the
      result holds every element of `s` exactly as often as `s` does. */
  lemma {:induction false} PickPermutation<T>(s: seq<T>, order: seq<nat>)
    requires IsPermutation(order, |s|)
    ensures |order| == |s| && InRange(order, |s|)
    ensures multiset(Pick(s, order)) == multiset(s)
    decreases |s|
  {
    PermutationInRange(order, |s|);
    if |s| > 0 {
      var n := |s|;
      var j := FindLargest(order, n);
      var rest := order[..j] + order[j + 1..];
      DropLargest(order, n, j);
      PermutationInRange(rest, n - 1);
      PickPermutation(s[..n - 1], rest);
      PickKeepsElementsStep(s, order, j);
    }
  }
}

=== FILE: settings.dfy ===
/** The extension's persisted settings: a string-keyed map of strings, and the
    checkboxes that are stored in it as `"Y"` / `"N"`. */
module SettingsStore {
  import opened Wrappers

  /** What the host keeps for one extension instance. */
  type Settings = map<string, string>

  /** `settings.get(key)`: the stored string, or `undefined`. */
  function Get(s: Settings, key: string): Option<string>
  {
    if key in s then Some(s[key]) else None
  }

  const WorksheetKey: string := "worksheet"
  const MaxRecordsKey: string := "max_no_records"
  const UnderlyingKey: string := "underlying"
  const TableClassesKey: string := "table-classes"
  const RowHeaderKey: string := "col-count-row-header"
  const ColumnOrderKey: string := "column_order"
  const ColumnNamesKey: string := "column_names"

  /** The checkboxes of the settings dialog: seven display options and five
      export buttons. */
  datatype Flag =
    | Compact | Hover | Nowrap | OrderColumn | RowBorder | Stripe | IncludeTableName
    | ExportClipboard | ExportExcel | ExportCsv | ExportPdf | ExportPrint
  {
    /** The settings key of the checkbox, which is also its element id. */
    function Key(): string
    {
      match this
      case Compact => "compact"
      case Hover => "hover"
      case Nowrap => "nowrap"
      case OrderColumn => "order-column"
      case RowBorder => "row-border"
      case Stripe => "stripe"
      case IncludeTableName => "include-table-name"
      case ExportClipboard => "export-clipboard"
      case ExportExcel => "export-excel"
      case ExportCsv => "export-csv"
      case ExportPdf => "export-pdf"
      case ExportPrint => "export-print"
    }
  }

  const AllFlags: set<Flag> :=
    {Compact, Hover, Nowrap, OrderColumn, RowBorder, Stripe, IncludeTableName,
     ExportClipboard, ExportExcel, ExportCsv, ExportPdf, ExportPrint}

  /** The settings keys the dialog writes besides the checkboxes. */
  const PlainKeys: set<string> :=
    {WorksheetKey, MaxRecordsKey, UnderlyingKey, TableClassesKey, RowHeaderKey,
     ColumnOrderKey, ColumnNamesKey}

  /** How a checkbox state is stored. */
  function YesNo(checked: bool): string
  {
    if checked then "Y" else "N"
  }

  /** How a stored value is read back as a checkbox state: only `"Y"` checks. */
  predicate IsYes(v: Option<string>)
  {
    v == Some("Y")
  }

  /** Every flag is listed. */
  lemma EveryFlagListed()
    ensures forall f: Flag :: f in AllFlags
  {
    forall f: Flag ensures f in AllFlags {
      match f
      case Compact => case Hover => case Nowrap => case OrderColumn =>
      case RowBorder => case Stripe => case IncludeTableName =>
      case ExportClipboard => case ExportExcel => case ExportCsv =>
      case ExportPdf => case ExportPrint =>
    }
  }

  /** Every flag is listed, different flags use different keys, and no flag key
      collides with another setting. */
  lemma FlagKeysDistinct()
    ensures forall f: Flag :: f in AllFlags
    ensures forall f: Flag, g: Flag :: f != g ==> f.Key() != g.Key()
    ensures forall f: Flag :: f.Key() !in PlainKeys
  {
    EveryFlagListed();
  }
}

=== FILE: wrappers.dfy ===
/** Failure-carrying result types shared by the dialog and the main view. */
module Wrappers {

  /** A settings lookup or a parse either yields a value or nothing
      (JavaScript's `undefined`). */
  datatype Option<+T> = None | Some(value: T)

  /** An operation of the widget either produces a value or stops with an error. */
  datatype Result<+T, +E> = Ok(value: T) | Err(error: E)
}
